=== FILE: README.md ===
# VibeNEWS ingest, enrichment and alert pipeline in Dafny

This project models the data path of the VibeNEWS news dashboard:

- **Feed reading** (`rss_service.dfy`). A parsed RSS item becomes a pending article. Defaults fill in a missing title, link or date. The snippet is cleaned: tags are stripped, `&nbsp;` becomes a space, the text is trimmed and then cut to 250 characters. The id is built from the source name, a hash of the link and the item's position.
- **Refresh** (`ingestion.dfy`). Every active source is fetched and the per-source lists are concatenated in source order. The batch is sorted newest first. Items whose link is already in the working set are dropped, and the rest go in front of the list, which is cut to 100. A refresh requested while another is running is dropped, and the flag is cleared on every outcome.
- **Background analysis** (`analysis.dfy`). The first unprocessed article is analysed. The result is written by id onto the list as it stands when the result arrives. A "Breaking Intel" notification is raised when a tracked keyword occurs in the title (ignoring case) and the absolute sentiment score reaches the threshold.
- **Feed view** (`feed_view.dfy`): the search and category/sentiment filter, marking a notification read, and the unread badge.
- **Settings editors** (`alert_settings.dfy`): adding and removing keywords, and adding, toggling and removing sources.
- **Relative time label** of a card (`news_card.dfy`).
- **Dashboard statistics** (`dashboard.dfy`): the category tally in order of first appearance, the "Top Segment" and "Total Analyzed". The "Top Segment" lookup sorts the tally in place, so the chart and legend draw the slices in that sorted order; only the sort's first element is modelled.

Shared parts:

- `types.dfy` holds the records: article, source, notification, preferences and application state.
- `text.dfy` holds the string helpers: JavaScript white space, ASCII lower-casing, substring search, `trim`, and decimal rendering.

The React callbacks become pure state transitions. The refresh is split into a begin step and an end step, so that analysis can run in between.

Parameters replace what the model cannot see:

- the network and XML parser (their outcome arrives as a `FeedResponse`, and `respond` gives the one for a url);
- the analyzer (`Article -> Enrichment`);
- `btoa` (`string -> string`);
- the clock (`now`).

Dates are integer timestamps.

Behaviours of the code that the proofs make visible:

- A snippet can end in white space, because the cut to 250 characters comes after the trim (`RssService.SnippetCanEndInWhitespace`).
- Two items of one batch with the same link both enter the list, because only the previous list is checked (`Ingestion.DuplicateLinksInBatchSurvive`).
- An analysis result for an article that a refresh evicted in the meantime is dropped silently. The alert is still raised (`Analysis.MarkEnrichedAbsentId`, `Analysis.AlertIndependentOfEviction`).
- Because the result is written by id, it also rewrites any other article that shares the id, even one already processed.

## Model

| member | source | states |
|---|---|---|
| RssService.FetchRssFeed | services/rssService.ts:10-75 | At most 15 articles. Every failure (network, HTTP status, parse error) gives the empty list. Otherwise article k is item k normalised with index k, and every article is pending and carries the source name. |
| RssService.NormalizeItem | services/rssService.ts:33-68 | The article is pending and tagged with the source. Title, link and snippet are never empty. A missing or empty title or link becomes "No Title" / "#". A missing date becomes the current time. The snippet is the cleaned body and the id is name-hash-index. |
| RssService.TextOr | services/rssService.ts:34-35 | `textContent \|\| fallback`: the text when present and non-empty, otherwise the fallback. |
| RssService.ChooseBody | services/rssService.ts:39-44 | The encoded content replaces the description exactly when it is non-empty and the description is shorter than 50 characters. |
| RssService.StripTags | services/rssService.ts:47 | No `<` is left, and every character kept comes from the input. What is kept is fixed by the three lemmas below. |
| RssService.StripTagsKeepsPlainText | services/rssService.ts:47 | Text without `<` passes tag stripping unchanged. |
| RssService.StripTagsKeepsText | services/rssService.ts:47 | Text in front of the first `<` is kept unchanged, and stripping goes on with the rest. |
| RssService.StripTagsDropsTag | services/rssService.ts:47 | A `<`, everything up to the next `>`, and that `>` are removed. The text after the tag is stripped in the same way. |
| RssService.StripTagsDropsUnclosed | services/rssService.ts:47 | A `<` with no `>` after it removes the rest of the text (the optional `>?` of the pattern). |
| RssService.ReplaceNbsp | services/rssService.ts:48 | The replacement never makes the text longer, since each `&nbsp;` shrinks to one character. |
| RssService.ReplaceNbspOnce | services/rssService.ts:48 | The text before the first `&nbsp;` is kept, stray `&` included, that `&nbsp;` becomes one space, and the replacement goes on after it. |
| RssService.ReplaceNbspKeepsNbspFree | services/rssService.ts:48 | Text in which no `&nbsp;` occurs, such as "AT&T", passes unchanged. With ReplaceNbspOnce this fixes the result for every input. |
| RssService.ReplaceNbspAddsOnlySpaces | services/rssService.ts:48 | The replacement brings in no character except the space. |
| RssService.ReplaceNbspRemovesAll | services/rssService.ts:48 | No `&nbsp;` occurs anywhere in the output of the global replacement, including one formed across a replaced occurrence. |
| RssService.ReplaceNbspKeepsPlainText | services/rssService.ts:48 | Text without `&` passes the replacement unchanged. |
| RssService.CleanSnippet | services/rssService.ts:46-50 | The snippet is the first min(250, length) characters of the body after tag stripping, `&nbsp;` replacement and trimming. It has no `<`, no `&nbsp;` and no leading white space. |
| RssService.SnippetOf | services/rssService.ts:66 | The snippet is never empty and is clean. It is the cleaned body when that is non-empty, and the placeholder "Summary analysis pending..." when cleaning leaves nothing. |
| RssService.PendingSnippetIsClean | services/rssService.ts:66 | The placeholder "Summary analysis pending..." itself satisfies the cleaned-text guarantees. |
| RssService.PlainBodyIsCut | services/rssService.ts:46-50 | A long body without markup or surrounding white space is cut to exactly its first 250 characters. |
| RssService.SnippetCanEndInWhitespace | services/rssService.ts:49-50 | Some body yields a snippet that ends in white space, because the cut follows the trim. |
| RssService.DashWhitespace | services/rssService.ts:61 | `replace(/\s+/g, '-')` leaves no white space. |
| RssService.DashWhitespaceRun | services/rssService.ts:61 | A whole run of white space becomes a single `-`. The text before it is kept, and the text after it is dashed in the same way. |
| RssService.DashWhitespaceKeepsPlainName | services/rssService.ts:61 | A source name without white space is used unchanged in the id. |
| RssService.LinkHash | services/rssService.ts:55 | The link hash is the prefix of `btoa(link)` of length min(10, its length). |
| RssService.ItemId | services/rssService.ts:61 | The id is the dashed source name, `-`, the link hash, `-` and the item's position in decimal, in that order and with nothing else. A name without white space appears as it is. |
| RssService.ItemIdsDiffer | services/rssService.ts:61 | Items at different positions of one feed get different ids, whatever their link hashes are, including hashes that contain `-`. |
| RssService.FeedIdsDistinct | services/rssService.ts:33-68 | The articles of one fetched feed have pairwise distinct ids. |
| Text.Trim | services/rssService.ts:49 | The result is the part of the input between its leading and trailing white space (JavaScript's white-space set) and has white space at neither end. Every substring of the result is a substring of the input. |
| Text.TrimKeepsTrimmed | services/rssService.ts:49 | Trimming leaves a string with no white space at either end unchanged, so trimming is idempotent. |
| Text.ContainsIffOccurs | App.tsx:91 | The left-to-right `includes` scan holds exactly when the needle occurs at some offset. |
| Text.NatToStringInjective | services/rssService.ts:61 | Different positions render as different decimal strings. |
| Ingestion.ActiveSources | App.tsx:50 | Exactly the active sources, as a subsequence of the sources, each with its own number of copies. |
| Ingestion.FetchAll | App.tsx:53-55 | One result per active source, in source order, each the fetch of that source's url and name. |
| Ingestion.Flatten | App.tsx:56 | An article is in the concatenation exactly when it is in one of the per-source lists. |
| Ingestion.FlattenKeepsEveryList | App.tsx:56 | The concatenation is as long as all lists together and contains every per-source list. |
| Ingestion.FlattenAppend | App.tsx:56 | Two runs of sources flatten to the concatenation of their flattenings. |
| Ingestion.FlattenPush | App.tsx:56 | Pushing one more source's items appends them, in their order, after all earlier articles. |
| Ingestion.InsertByDate | App.tsx:59 | Inserting into a newest-first list keeps it newest first. The result holds the list plus the item. |
| Ingestion.SortNewestFirst | App.tsx:59 | The result is newest first and a permutation of the input. |
| Ingestion.CandidateBatch | App.tsx:56-59 | The batch is newest first and a permutation of the concatenated per-source results. |
| Ingestion.Links | App.tsx:62 | A link is in the set exactly when some article of the list has it. |
| Ingestion.FreshItems | App.tsx:63 | The filter keeps a subsequence of the batch in which no item has a known link. |
| Ingestion.FreshItemsCount | App.tsx:63 | The filter keeps every copy of an item with a new link and no copy of one with a known link. |
| Ingestion.FreshItemsKeepsNew | App.tsx:63 | Every batch item with a new link survives the filter, and its link is among the links of the result. |
| Ingestion.PrependBounded | App.tsx:64 | `[...front, ...back].slice(0, 100)`: at most 100 items, front items first, then back items, positionally. |
| Ingestion.Merge | App.tsx:61-65 | The merged list has min(100, new + previous) items. Its first items are the new ones in batch order, each from the batch with a link not in the previous list. |
| Ingestion.MergeKeepsPrevious | App.tsx:64 | Behind the new items the previous list follows in order: a previous item is pushed back or cut off, never replaced. |
| Ingestion.MergeOfKnownLinksChangesNothing | App.tsx:61-65 | A batch whose links are all known (the empty batch included) leaves a list within capacity unchanged. |
| Ingestion.MergeIdempotent | App.tsx:61-65 | Merging the same batch twice equals merging it once, when the first merge kept everything. |
| Ingestion.LinksOfConcat | App.tsx:62-64 | The links of a concatenation are the union of the links of its parts. |
| Ingestion.FreshItemsAllNew | App.tsx:63 | With no known links the filter keeps the whole batch. |
| Ingestion.DuplicateLinksInBatchSurvive | App.tsx:62-64 | Two batch items with the same link both enter an empty list. |
| Ingestion.BeginRefresh | App.tsx:46-47 | After the guard the flag is set. A call while refreshing changes nothing. |
| Ingestion.EndRefresh | App.tsx:61-70 | The flag is cleared on every outcome and notifications are untouched. A rejected fetch leaves the articles unchanged. A fetched one merges the sorted batch into the current list. |
| Ingestion.Refresh | App.tsx:45-71 | While a refresh runs, a new one does nothing. Otherwise it ends with the flag cleared and notifications untouched. A fetched outcome merges the sorted batch into the list, and a rejected one leaves the list as it was. |
| Ingestion.SecondRefreshDropped | App.tsx:46 | A second refresh issued while the first is in flight leaves the state exactly as the first one set it. |
| Ingestion.RefreshKeepsInvariant | App.tsx:61-65 | A refresh keeps the list within 100 and keeps each article's analysis fields present exactly when it is processed. |
| Ingestion.FetchActiveFeeds | App.tsx:50-55 | One feed per active source, in source order, each `fetchRssFeed` of that source's url and name. Every article in them is pending and carries its source's name. |
| Ingestion.FetchedFeedsConsistent | App.tsx:53-56 | The fetched feeds hold only consistent articles. |
| Ingestion.FetchedArticleOrigin | App.tsx:50-56 | Every article of the concatenated fetch is pending and names a source that is active. |
| Ingestion.MergeAddsFromBatch | App.tsx:63-64 | Every article the merge adds to the list comes from the batch. |
| Ingestion.RefreshFromSources | App.tsx:45-71 | A refresh built from the real fetches keeps the list within 100 and consistent. Every article it adds is pending and comes from an active source. |
| Analysis.FirstUnprocessed | App.tsx:80 | `find(a => !a.processed)` as a position: none exactly when all are processed, otherwise the first unprocessed one. |
| Analysis.FallbackEnrichment | services/geminiService.ts:43-48 | The fallback is category Other, Neutral, score 0. The summary is the snippet, or "Failed to generate summary." when the snippet is empty. |
| Analysis.Enrich | App.tsx:85 | `{ ...a, ...analysis, processed: true }` keeps the ingestion fields, sets every analysis field and marks the article processed. |
| Analysis.MarkEnriched | App.tsx:83-87 | Same length and order. Articles with the target id are enriched and all others are unchanged. |
| Analysis.MarkEnrichedCount | App.tsx:83-87 | The unprocessed count drops by exactly the number of unprocessed articles with the target id. |
| Analysis.MarkEnrichedAbsentId | App.tsx:83-87 | When no article has the id any more (the target was evicted), the update changes nothing. |
| Analysis.MarkEnrichedConsistent | App.tsx:83-87 | The update keeps analysis fields present exactly on processed articles. |
| Analysis.MatchesKeyword | App.tsx:90-92 | The keyword test holds exactly when some tracked keyword, lower-cased, is contained in the lower-cased title. |
| Analysis.MatchesKeywordMeaning | App.tsx:90-92 | The same test holds exactly when some lower-cased keyword occurs at some offset of the lower-cased title. |
| Analysis.EvaluateAlert | App.tsx:90-104 | An alert is raised exactly when a keyword occurs and the absolute score is at least the threshold. It is unread, of kind breaking, stamped with the time, with id "notif-" + time, the fixed title and the message naming title and category. |
| Analysis.AlertFiresOnTrackedStrongItem | App.tsx:90-95 | A tracked keyword with a score of 0.8 against a threshold of 0.6 alerts. |
| Analysis.AlertQuietBelowThreshold | App.tsx:93-95 | The same item against a 0.9 threshold does not alert. |
| Analysis.AlertQuietOnUntrackedItem | App.tsx:90-95 | The same item does not alert when its keyword is not tracked. |
| Analysis.FinishAnalysis | App.tsx:83-104 | The result is written by id into the current list. The alert, if any, goes to the front of the notifications, and the refresh flag is untouched. |
| Analysis.AlertIndependentOfEviction | App.tsx:83-104 | Whether an alert is raised does not depend on the article list the result lands on. |
| Analysis.ProcessStep | App.tsx:79-107 | With nothing unprocessed nothing changes. Otherwise the first unprocessed article is analysed and the unprocessed count strictly drops. Consistency of analysis fields is preserved. |
| Analysis.ProcessAll | App.tsx:78-111 | Repeated cycles end with every article processed, the same length, and no ingestion field changed. |
| Analysis.FallbackTotality | App.tsx:80-87 | When every analysis call fails, every article that was unprocessed ends processed with the fallback fields. |
| FeedView.FilterArticles | App.tsx:113-121 | Exactly the articles passing search, category and sentiment, in list order and with their multiplicity. |
| FeedView.NoFilterShowsAll | App.tsx:113-121 | An empty search with both selectors on "All" shows every article. |
| FeedView.MarkRead | App.tsx:216 | Notifications with the id become read and nothing else changes. |
| FeedView.UnreadCount | App.tsx:123 | The badge is at most the number of notifications. It is 0 exactly when all are read, and it equals their number exactly when none is read. |
| FeedView.UnreadCountIsUnreadPositions | App.tsx:123 | The badge equals the number of positions that hold an unread notification. |
| FeedView.UnreadCountPush | App.tsx:123 | One more notification at the end adds one exactly when it is unread. |
| FeedView.MarkReadUnreadCount | App.tsx:123 | Marking an id read lowers the badge by exactly the unread notifications with that id. |
| FeedView.MarkReadIdempotent | App.tsx:216 | Marking read twice equals marking once. |
| FeedView.PrependedAlertCounts | App.tsx:104 | A new unread alert at the front raises the badge by one. |
| AlertSettings.AddKeyword | components/AlertSettings.tsx:16-24 | A non-empty, untracked keyword is appended. Otherwise nothing changes. Other fields are untouched and a duplicate-free list stays duplicate free. |
| AlertSettings.AddKeywordIdempotent | components/AlertSettings.tsx:16-24 | Adding a keyword twice equals adding it once. |
| AlertSettings.WithoutKeyword | components/AlertSettings.tsx:29 | No copy of the keyword is left. Every other keyword keeps its order and its number of copies, and a list without the keyword is unchanged. |
| AlertSettings.RemoveKeyword | components/AlertSettings.tsx:26-31 | Only the keyword list changes, losing exactly that keyword. |
| AlertSettings.RemoveUndoesAdd | components/AlertSettings.tsx:16-31 | Removing a keyword just added restores the preferences. |
| AlertSettings.AddSource | components/AlertSettings.tsx:33-48 | With a name and url, one active source with id "source-" + time is appended. Otherwise nothing changes. |
| AlertSettings.FlipSources | components/AlertSettings.tsx:53 | Sources with the id flip `active` and all others are unchanged. |
| AlertSettings.ToggleSource | components/AlertSettings.tsx:50-55 | Only the source list changes. |
| AlertSettings.ToggleSourceInvolution | components/AlertSettings.tsx:50-55 | Toggling twice restores the preferences. |
| AlertSettings.WithoutSource | components/AlertSettings.tsx:60 | Exactly the sources with another id remain, in order and each with its number of copies. |
| AlertSettings.RemoveSource | components/AlertSettings.tsx:57-62 | Only the source list changes, losing exactly the sources with that id. |
| AlertSettings.RemoveSourceUndoesAdd | components/AlertSettings.tsx:33-62 | Removing the source just added (its id new) restores the preferences. |
| NewsCard.Elapsed | components/NewsCard.tsx:14-24 | Days exactly from 25 hours on, hours from 1 to under 25 hours, minutes below one hour (future dates included). Each count is the floor of the difference. |
| NewsCard.TimeAgo | components/NewsCard.tsx:14-24 | From 25 hours on, the whole number of days elapsed with "d ago". From 1 to under 25 hours, the whole hours with "h ago". Below one hour, the whole minutes with "m ago", and a date in the future reads as a negative number of minutes. |
| NewsCard.DayBoundary | components/NewsCard.tsx:21-22 | Exactly 24 hours reads "24h ago", 25 hours "1d ago". |
| Dashboard.ProcessedArticles | components/Dashboard.tsx:25 | The processed articles in order. Their number plus the unprocessed count is the total. |
| Dashboard.CategoryData | components/Dashboard.tsx:38-44 | One slice per category met among processed articles, in order of first appearance, no category twice. Each holds that category's positive count, every occurring category is present, and the values sum to the categorised articles. |
| Dashboard.TallyOf | components/Dashboard.tsx:40-42 | The loop over the articles ends with the exact tally: first-appearance order, per-category counts, and the right total. |
| Dashboard.TallyStep | components/Dashboard.tsx:40-42 | Counting one more article keeps the tally exact. |
| Dashboard.FirstSeenMember | components/Dashboard.tsx:43 | A category is listed exactly when it occurs. |
| Dashboard.FirstSeenDistinct | components/Dashboard.tsx:43 | No category is listed twice. |
| Dashboard.TopSegment | components/Dashboard.tsx:52 | None exactly for no slices. Otherwise the earliest slice with the largest value, as a stable descending sort puts first. |
| Dashboard.TopIsUnique | components/Dashboard.tsx:52 | The top slice is unique. |
| Dashboard.TopSegmentLabel | components/Dashboard.tsx:52 | "N/A" with no slices, otherwise the name of the top slice. |
| Dashboard.TotalAnalyzed | components/Dashboard.tsx:49 | The number of processed articles. |

## Left out

- React rendering, hooks and effects; the 1500 ms timer and its re-arming when articles or preferences change; the refresh triggered by a change in the number of active sources. Analysis and refresh are modelled as state transitions, and `ProcessAll` runs the cycle to completion.
- Interleaving of a refresh and an analysis is represented only by the end steps acting on whichever state is current (`EndRefresh`, `FinishAnalysis`), not by a scheduler.
- Persistence of preferences in `localStorage` and the JSON round trip of the saved preferences.
- `fetch`, the CORS proxy URL, `DOMParser` and `querySelector`: the model takes a `FeedResponse` (network failure, HTTP error, parse error, or the items' element texts).
- The Gemini request, its schema and `JSON.parse`: the analyzer is a function parameter. Only its documented fallback (`FallbackEnrichment`) is modelled.
- The analyzer's result is always a complete `Enrichment`. The code has one more path: an empty `response.text` makes the analyzer return `JSON.parse("{}")`, an object without fields. The article is then marked processed with no analysis fields, and `Math.abs(undefined) >= threshold` is false, so no alert is raised. The model does not represent that result.
- `Analysis.MarkEnrichedConsistent`: the analysis fields present exactly on processed articles holds only because the analyzer is typed. After an empty response the code marks an article processed without them.
- `Analysis.ProcessStep`: the consistency clause depends on the same typed-analyzer abstraction.
- `Ingestion.RefreshKeepsInvariant`: the consistency of the working set depends on the same typed-analyzer abstraction.
- `Dashboard.CategoryData`: gives the tally in first-appearance order. The "Top Segment" stat sorts `categoryData` in place by descending value (components/Dashboard.tsx:52), and the pie slices, their colours and the legend (components/Dashboard.tsx:115-131) are drawn in that sorted order. Only the sort's first element is modelled (`Dashboard.TopSegment`); the full sorted display order is not.
- `Analysis.ProcessAll`: uses one clock value for every cycle, whereas each timer cycle reads `Date.now()` again. The alerts it raises therefore share one timestamp and one id.
- `btoa` is a parameter. The `Math.random` fallback for links that `btoa` rejects is not modelled, because it is nondeterministic.
- Date parsing and `Date.now()`: dates are integer timestamps and the clock is a parameter. A missing `pubDate` takes that time. Unparseable dates (NaN in the sort comparator and in `timeAgo`) are not modelled.
- The refresh's `catch` branch is modelled as a `Rejected` outcome. Since `fetchRssFeed` catches all its own errors, the code reaches it only through failures outside the model.
- `toLowerCase` is modelled for ASCII letters only, and string lengths count Unicode scalar values, not UTF-16 code units.
- `Text.Lower`: does not lower-case non-ASCII letters, because full Unicode case mapping is not modelled.
- `Ingestion.SortNewestFirst`: states ordering and permutation but not the stability of `Array.prototype.sort`, because the order of equal dates is not relied on elsewhere.
- The dashboard's "Positive Bias" and "Negative Bias" percentages (floating-point division and `Math.round`), the random seven-day sentiment trend, and the chart colours.
- The components that only present data (article reader, notifications panel, sidebar) and the constants file's initial preferences and colour tables.
- The sentiment slider and the e-mail switch of the settings screen: they only store a value in the preferences.
- The `alertFrequency` preference: it is declared with a default but no code reads or sets it, so it plays no part in the model.

=== FILE: alert_settings.dfy ===
/**
 The preference editors of the settings screen, each a pure transformer of
 the preferences record that touches only its own field: tracked keywords
 (add, remove) and sources (add, toggle, remove).
 */
module AlertSettings {
  import opened Types
  import opened Text

  /** All the fields other than the keyword list agree. */
  predicate SameExceptKeywords(p: Preferences, q: Preferences)
  {
    p.sentimentThreshold == q.sentimentThreshold && p.alertFrequency == q.alertFrequency
    && p.emailEnabled == q.emailEnabled && p.sources == q.sources
  }

  /** All the fields other than the source list agree. */
  predicate SameExceptSources(p: Preferences, q: Preferences)
  {
    p.trackedKeywords == q.trackedKeywords && p.sentimentThreshold == q.sentimentThreshold
    && p.alertFrequency == q.alertFrequency && p.emailEnabled == q.emailEnabled
  }

  /** `addKeyword`: appends a non-empty keyword that is not tracked yet
      (exact match); otherwise the preferences stay as they are. */
  function AddKeyword(p: Preferences, keyword: string): (r: Preferences)
    ensures SameExceptKeywords(r, p)
    ensures keyword != [] && keyword !in p.trackedKeywords ==> r.trackedKeywords == p.trackedKeywords + [keyword]
    ensures keyword == [] || keyword in p.trackedKeywords ==> r == p
    ensures keyword != [] ==> keyword in r.trackedKeywords
    ensures Distinct(p.trackedKeywords) ==> Distinct(r.trackedKeywords)
  {
    if keyword != [] && keyword !in p.trackedKeywords then
      p.(trackedKeywords := p.trackedKeywords + [keyword])
    else p
  }

  /** Adding the same keyword twice is adding it once. */
  lemma AddKeywordIdempotent(p: Preferences, keyword: string)
    ensures AddKeyword(AddKeyword(p, keyword), keyword) == AddKeyword(p, keyword)
  {
  }

  /** `trackedKeywords.filter(k => k !== keyword)`. */
  function WithoutKeyword(ks: seq<string>, keyword: string): (r: seq<string>)
    ensures keyword !in r
    ensures forall k :: k in r <==> k in ks && k != keyword
    ensures forall k :: multiset(r)[k] == if k == keyword then 0 else multiset(ks)[k]
    ensures Subsequence(r, ks)
    ensures keyword !in ks ==> r == ks
  {
    if |ks| == 0 then []
    else
      assert ks == [ks[0]] + ks[1..];
      var rest := WithoutKeyword(ks[1..], keyword);
      if ks[0] == keyword then rest else [ks[0]] + rest
  }

  /** `removeKeyword`: drops every occurrence of the keyword and keeps the
      others in order. */
  function RemoveKeyword(p: Preferences, keyword: string): (r: Preferences)
    ensures SameExceptKeywords(r, p)
    ensures r.trackedKeywords == WithoutKeyword(p.trackedKeywords, keyword)
  {
    p.(trackedKeywords := WithoutKeyword(p.trackedKeywords, keyword))
  }

  /** Removing a keyword just added restores the preferences. */
  lemma RemoveUndoesAdd(p: Preferences, keyword: string)
    requires keyword !in p.trackedKeywords
    ensures RemoveKeyword(AddKeyword(p, keyword), keyword) == p
  {
    if keyword != [] {
      WithoutKeywordAppend(p.trackedKeywords, keyword);
    }
  }

  lemma {:induction false} WithoutKeywordAppend(ks: seq<string>, keyword: string)
    requires keyword !in ks
    ensures WithoutKeyword(ks + [keyword], keyword) == ks
  {
    if |ks| == 0 {
      assert [] + [keyword] == [keyword];
    } else {
      assert (ks + [keyword])[1..] == ks[1..] + [keyword];
      WithoutKeywordAppend(ks[1..], keyword);
      assert ks == [ks[0]] + ks[1..];
    }
  }

  /** The id `addSource` gives a source created at time `now`. */
  function SourceId(now: int): string
  {
    "source-" + IntToString(now)
  }

  /** `addSource`: with a non-empty name and url, appends one active source
      with those values and an id made from `now`; otherwise nothing changes. */
  function AddSource(p: Preferences, name: string, url: string, now: int): (r: Preferences)
    ensures SameExceptSources(r, p)
    ensures name != [] && url != [] ==> r.sources == p.sources + [RssSource(SourceId(now), name, url, true)]
    ensures name == [] || url == [] ==> r == p
  {
    if name != [] && url != [] then
      p.(sources := p.sources + [RssSource(SourceId(now), name, url, true)])
    else p
  }

  /** `sources.map(s => s.id === id ? { ...s, active: !s.active } : s)`. */
  function FlipSources(ss: seq<RssSource>, id: string): (r: seq<RssSource>)
    ensures |r| == |ss|
    ensures forall k :: 0 <= k < |ss| && ss[k].id != id ==> r[k] == ss[k]
    ensures forall k :: 0 <= k < |ss| && ss[k].id == id ==> r[k] == ss[k].(active := !ss[k].active)
  {
    if |ss| == 0 then []
    else [if ss[0].id == id then ss[0].(active := !ss[0].active) else ss[0]] + FlipSources(ss[1..], id)
  }

  /** `toggleSource`: flips `active` on the sources with that id. */
  function ToggleSource(p: Preferences, id: string): (r: Preferences)
    ensures SameExceptSources(r, p)
    ensures r.sources == FlipSources(p.sources, id)
  {
    p.(sources := FlipSources(p.sources, id))
  }

  /** Toggling twice restores the preferences. */
  lemma ToggleSourceInvolution(p: Preferences, id: string)
    ensures ToggleSource(ToggleSource(p, id), id) == p
  {
    var once := FlipSources(p.sources, id);
    var twice := FlipSources(once, id);
    assert forall k :: 0 <= k < |twice| ==> twice[k] == p.sources[k];
  }

  /** `sources.filter(s => s.id !== id)`. */
  function WithoutSource(ss: seq<RssSource>, id: string): (r: seq<RssSource>)
    ensures forall s :: s in r <==> s in ss && s.id != id
    ensures forall s :: multiset(r)[s] == if s.id == id then 0 else multiset(ss)[s]
    ensures Subsequence(r, ss)
  {
    if |ss| == 0 then []
    else
      assert ss == [ss[0]] + ss[1..];
      var rest := WithoutSource(ss[1..], id);
      if ss[0].id == id then rest else [ss[0]] + rest
  }

  /** `removeSource`: drops exactly the sources with that id, keeping the
      order of the rest. */
  function RemoveSource(p: Preferences, id: string): (r: Preferences)
    ensures SameExceptSources(r, p)
    ensures r.sources == WithoutSource(p.sources, id)
  {
    p.(sources := WithoutSource(p.sources, id))
  }

  /** Removing the source just added (when no older source has its id)
      restores the preferences. */
  lemma RemoveSourceUndoesAdd(p: Preferences, name: string, url: string, now: int)
    requires forall k :: 0 <= k < |p.sources| ==> p.sources[k].id != SourceId(now)
    ensures RemoveSource(AddSource(p, name, url, now), SourceId(now)) == p
  {
    WithoutSourceKeepsOthers(p.sources, SourceId(now));
    if name != [] && url != [] {
      WithoutSourceAppend(p.sources, RssSource(SourceId(now), name, url, true));
    }
  }

  lemma {:induction false} WithoutSourceKeepsOthers(ss: seq<RssSource>, id: string)
    requires forall k :: 0 <= k < |ss| ==> ss[k].id != id
    ensures WithoutSource(ss, id) == ss
  {
    if |ss| > 0 {
      WithoutSourceKeepsOthers(ss[1..], id);
      assert ss == [ss[0]] + ss[1..];
    }
  }

  lemma {:induction false} WithoutSourceAppend(ss: seq<RssSource>, s: RssSource)
    requires forall k :: 0 <= k < |ss| ==> ss[k].id != s.id
    ensures WithoutSource(ss + [s], s.id) == ss
  {
    if |ss| == 0 {
      assert [] + [s] == [s];
    } else {
      assert (ss + [s])[1..] == ss[1..] + [s];
      WithoutSourceAppend(ss[1..], s);
      assert ss == [ss[0]] + ss[1..];
    }
  }
}

=== FILE: analysis.dfy ===
/**
 The background processor: pick the first article not yet processed, hand
 it to the analyzer, write the result onto every article with the same id in
 the list as it is when the result arrives, and raise a "breaking"
 notification when the title mentions a tracked keyword and the sentiment is
 strong enough. The analyzer is a parameter; its documented fallback is
 `FallbackEnrichment`.
 */
module Analysis {
  import opened Types
  import opened Text

  const AlertTitle: string := "Breaking Intel"
  const NoSummary: string := "Failed to generate summary."

  /** `articles.find(a => !a.processed)`, as a position. */
  function FirstUnprocessed(s: seq<Article>): (r: Option<nat>)
    ensures r.None? <==> forall k :: 0 <= k < |s| ==> s[k].processed
    ensures r.Some? ==> r.value < |s| && !s[r.value].processed
                        && forall k :: 0 <= k < r.value ==> s[k].processed
  {
    if |s| == 0 then None
    else if !s[0].processed then Some(0)
    else match FirstUnprocessed(s[1..])
      case None => None
      case Some(i) => Some(i + 1)
  }

  /** The fallback the analyzer returns when its call fails. */
  function FallbackEnrichment(a: Article): (e: Enrichment)
    ensures e.category == Other && e.sentiment == Neutral && e.sentimentScore == 0.0
    ensures e.summary != []
    ensures a.contentSnippet != [] ==> e.summary == a.contentSnippet
    ensures a.contentSnippet == [] ==> e.summary == NoSummary
  {
    Enrichment(if a.contentSnippet != [] then a.contentSnippet else NoSummary, Other, Neutral, 0.0)
  }

  /** `{ ...a, ...analysis, processed: true }`. */
  function Enrich(a: Article, e: Enrichment): (r: Article)
    ensures SameFacts(r, a) && r.processed && Consistent(r)
    ensures r.summary == Some(e.summary) && r.category == Some(e.category)
    ensures r.sentiment == Some(e.sentiment) && r.sentimentScore == Some(e.sentimentScore)
  {
    a.(summary := Some(e.summary), sentiment := Some(e.sentiment),
       sentimentScore := Some(e.sentimentScore), category := Some(e.category), processed := true)
  }

  /** The update by id: every article with that id gets the enrichment, the
      others stay as they are; length and order are kept. */
  function MarkEnriched(s: seq<Article>, id: string, e: Enrichment): (r: seq<Article>)
    ensures |r| == |s|
    ensures forall k :: 0 <= k < |s| && s[k].id != id ==> r[k] == s[k]
    ensures forall k :: 0 <= k < |s| && s[k].id == id ==> r[k] == Enrich(s[k], e)
  {
    if |s| == 0 then []
    else [if s[0].id == id then Enrich(s[0], e) else s[0]] + MarkEnriched(s[1..], id, e)
  }

  /** Unprocessed articles carrying `id`. */
  function PendingWithId(s: seq<Article>, id: string): nat
  {
    if |s| == 0 then 0
    else (if s[0].id == id && !s[0].processed then 1 else 0) + PendingWithId(s[1..], id)
  }

  /** The update removes exactly the unprocessed articles with that id from
      the unprocessed count. */
  lemma {:induction false} MarkEnrichedCount(s: seq<Article>, id: string, e: Enrichment)
    ensures UnprocessedCount(MarkEnriched(s, id, e)) + PendingWithId(s, id) == UnprocessedCount(s)
  {
    if |s| > 0 {
      MarkEnrichedCount(s[1..], id, e);
      assert MarkEnriched(s, id, e)[1..] == MarkEnriched(s[1..], id, e);
    }
  }

  lemma {:induction false} PendingWithIdPositive(s: seq<Article>, id: string, i: nat)
    requires i < |s| && s[i].id == id && !s[i].processed
    ensures PendingWithId(s, id) >= 1
  {
    if i > 0 {
      PendingWithIdPositive(s[1..], id, i - 1);
    }
  }

  /** Writing to an id no article carries (the target was evicted in the
      meantime) leaves the list as it was. */
  lemma MarkEnrichedAbsentId(s: seq<Article>, id: string, e: Enrichment)
    requires forall k :: 0 <= k < |s| ==> s[k].id != id
    ensures MarkEnriched(s, id, e) == s
  {
  }

  /** The update keeps the analysis fields consistent with `processed`. */
  lemma MarkEnrichedConsistent(s: seq<Article>, id: string, e: Enrichment)
    requires AllConsistent(s)
    ensures AllConsistent(MarkEnriched(s, id, e))
  {
  }

  function AbsReal(x: real): real
  {
    if x < 0.0 then -x else x
  }

  /** `trackedKeywords.some(k => title.toLowerCase().includes(k.toLowerCase()))`,
      one keyword at a time. */
  function MatchesKeyword(keywords: seq<string>, title: string): (b: bool)
    ensures b <==> exists k :: 0 <= k < |keywords| && Contains(Lower(title), Lower(keywords[k]))
  {
    if |keywords| == 0 then false
    else
      var rest := MatchesKeyword(keywords[1..], title);
      assert forall k :: 1 <= k < |keywords| ==> keywords[k] == keywords[1..][k - 1];
      Contains(Lower(title), Lower(keywords[0])) || rest
  }

  /** The `some` over the keywords means: one of them occurs in the title,
      ignoring ASCII case. */
  lemma MatchesKeywordMeaning(keywords: seq<string>, title: string)
    ensures MatchesKeyword(keywords, title) <==>
            exists k, i :: 0 <= k < |keywords| && OccursAt(Lower(title), Lower(keywords[k]), i)
  {
    forall k | 0 <= k < |keywords|
      ensures Contains(Lower(title), Lower(keywords[k])) <==> exists i :: OccursAt(Lower(title), Lower(keywords[k]), i)
    {
      ContainsIffOccurs(Lower(title), Lower(keywords[k]));
    }
  }

  /** The text of the alert. */
  function AlertMessage(title: string, c: Category): string
  {
    "High impact coverage detected: \"" + title + "\" in " + CategoryName(c)
  }

  /** The alert rule: a tracked keyword in the title AND a sentiment score
      at least the threshold in absolute value. The notification is unread,
      of kind breaking, and stamped with `now`. */
  function EvaluateAlert(target: Article, e: Enrichment, prefs: Preferences, now: int): (r: Option<Notification>)
    ensures r.Some? <==>
              && (exists k, i :: 0 <= k < |prefs.trackedKeywords|
                                  && OccursAt(Lower(target.title), Lower(prefs.trackedKeywords[k]), i))
              && AbsReal(e.sentimentScore) >= prefs.sentimentThreshold
    ensures r.Some? ==> && r.value.kind == Breaking && !r.value.isRead && r.value.timestamp == now
                        && r.value.id == "notif-" + IntToString(now)
                        && r.value.title == AlertTitle
                        && r.value.message == AlertMessage(target.title, e.category)
  {
    MatchesKeywordMeaning(prefs.trackedKeywords, target.title);
    if MatchesKeyword(prefs.trackedKeywords, target.title) && AbsReal(e.sentimentScore) >= prefs.sentimentThreshold then
      Some(Notification("notif-" + IntToString(now), AlertTitle, AlertMessage(target.title, e.category), now, false, Breaking))
    else None
  }

  /** Worked case of the alert rule: the headline "NVIDIA unveils chip" with
      a score of 0.8, "NVIDIA" tracked and a 0.6 threshold, alerts. */
  lemma AlertFiresOnTrackedStrongItem(a: Article, e: Enrichment, prefs: Preferences, now: int)
    requires a.title == "NVIDIA unveils chip" && e.sentimentScore == 0.8
    requires prefs.trackedKeywords == ["NVIDIA"] && prefs.sentimentThreshold == 0.6
    ensures EvaluateAlert(a, e, prefs, now).Some?
  {
    assert Lower(a.title)[0..6] == Lower(prefs.trackedKeywords[0]);
    assert OccursAt(Lower(a.title), Lower(prefs.trackedKeywords[0]), 0);
  }

  /** The same item under a 0.9 threshold does not alert. */
  lemma AlertQuietBelowThreshold(a: Article, e: Enrichment, prefs: Preferences, now: int)
    requires a.title == "NVIDIA unveils chip" && e.sentimentScore == 0.8
    requires prefs.trackedKeywords == ["NVIDIA"] && prefs.sentimentThreshold == 0.9
    ensures EvaluateAlert(a, e, prefs, now).None?
  {
  }

  /** The same item does not alert when only "Tesla" is tracked. */
  lemma AlertQuietOnUntrackedItem(a: Article, e: Enrichment, prefs: Preferences, now: int)
    requires a.title == "NVIDIA unveils chip" && e.sentimentScore == 0.8
    requires prefs.trackedKeywords == ["Tesla"] && prefs.sentimentThreshold == 0.6
    ensures EvaluateAlert(a, e, prefs, now).None?
  {
    var title := Lower(a.title);
    var keyword := Lower(prefs.trackedKeywords[0]);
    assert keyword[0] == 't';
    assert 't' !in title;
  }

  /** The end of a processing cycle, applied to the state as it is when the
      analysis returns: the enrichment is written by id (a no-op when the
      target has been evicted) and the alert, if any, goes to the front of
      the notifications. */
  function FinishAnalysis(st: AppState, target: Article, e: Enrichment, prefs: Preferences, now: int): (r: AppState)
    ensures r.articles == MarkEnriched(st.articles, target.id, e)
    ensures r.isRefreshing == st.isRefreshing
    ensures EvaluateAlert(target, e, prefs, now).None? ==> r.notifications == st.notifications
    ensures EvaluateAlert(target, e, prefs, now).Some? ==>
              r.notifications == [EvaluateAlert(target, e, prefs, now).value] + st.notifications
  {
    var notifications := match EvaluateAlert(target, e, prefs, now)
      case Some(n) => [n] + st.notifications
      case None => st.notifications;
    st.(articles := MarkEnriched(st.articles, target.id, e), notifications := notifications)
  }

  /** Whether an alert is raised does not depend on whether the target is
      still in the list: two states with the same notifications end with the
      same notifications. */
  lemma AlertIndependentOfEviction(st1: AppState, st2: AppState, target: Article, e: Enrichment, prefs: Preferences, now: int)
    requires st1.notifications == st2.notifications
    ensures FinishAnalysis(st1, target, e, prefs, now).notifications == FinishAnalysis(st2, target, e, prefs, now).notifications
  {
  }

  /** One processing cycle taken as a single step: nothing happens when
      every article is processed; otherwise the first unprocessed one is
      analysed and the unprocessed count drops. */
  function ProcessStep(st: AppState, prefs: Preferences, analyze: Article -> Enrichment, now: int): (r: AppState)
    ensures |r.articles| == |st.articles|
    ensures r.isRefreshing == st.isRefreshing
    ensures FirstUnprocessed(st.articles).None? ==> r == st
    ensures FirstUnprocessed(st.articles).Some? ==>
              var target := st.articles[FirstUnprocessed(st.articles).value];
              r == FinishAnalysis(st, target, analyze(target), prefs, now)
    ensures FirstUnprocessed(st.articles).Some? ==> UnprocessedCount(r.articles) < UnprocessedCount(st.articles)
    ensures AllConsistent(st.articles) ==> AllConsistent(r.articles)
  {
    match FirstUnprocessed(st.articles)
    case None => st
    case Some(i) =>
      var target := st.articles[i];
      var e := analyze(target);
      MarkEnrichedCount(st.articles, target.id, e);
      PendingWithIdPositive(st.articles, target.id, i);
      FinishAnalysis(st, target, e, prefs, now)
  }

  /** Forward progress: repeating the step until nothing is left processes
      every article, keeps the length, and changes no ingestion-time field.
      Every cycle reads the same clock value `now`, whereas each cycle of the
      timer calls `Date.now()` afresh; so the alerts raised here all share
      one timestamp and one id. */
  function ProcessAll(st: AppState, prefs: Preferences, analyze: Article -> Enrichment, now: int): (r: AppState)
    ensures |r.articles| == |st.articles|
    ensures forall k :: 0 <= k < |r.articles| ==> r.articles[k].processed
    ensures forall k :: 0 <= k < |r.articles| ==> SameFacts(r.articles[k], st.articles[k])
    decreases UnprocessedCount(st.articles)
  {
    match FirstUnprocessed(st.articles)
    case None => st
    case Some(_) =>
      var next := ProcessStep(st, prefs, analyze, now);
      var r := ProcessAll(next, prefs, analyze, now);
      assert forall k :: 0 <= k < |r.articles| ==> SameFacts(next.articles[k], st.articles[k]);
      r
  }

  /** The analysis fields of the fallback. */
  predicate HasFallbackFields(a: Article)
  {
    a.category == Some(Other) && a.sentiment == Some(Neutral) && a.sentimentScore == Some(0.0)
  }

  /** When every analysis call fails, every article that was unprocessed
      ends up processed with the neutral fallback: category Other, sentiment
      Neutral, score 0. Rewrites of an article that shares an id with a
      later target keep those fields, since they come from the fallback too. */
  lemma {:induction false} FallbackTotality(st: AppState, prefs: Preferences, now: int)
    ensures var r := ProcessAll(st, prefs, FallbackEnrichment, now);
            forall k :: 0 <= k < |st.articles| && (!st.articles[k].processed || HasFallbackFields(st.articles[k])) ==>
              r.articles[k].processed && HasFallbackFields(r.articles[k])
    decreases UnprocessedCount(st.articles)
  {
    match FirstUnprocessed(st.articles)
    case None =>
    case Some(i) =>
      var next := ProcessStep(st, prefs, FallbackEnrichment, now);
      var target := st.articles[i];
      var e := FallbackEnrichment(target);
      assert next.articles == MarkEnriched(st.articles, target.id, e);
      forall k | 0 <= k < |st.articles| && (!st.articles[k].processed || HasFallbackFields(st.articles[k]))
        ensures !next.articles[k].processed || HasFallbackFields(next.articles[k])
      {
        if st.articles[k].id == target.id {
          assert next.articles[k] == Enrich(st.articles[k], e);
        }
      }
      FallbackTotality(next, prefs, now);
      assert ProcessAll(st, prefs, FallbackEnrichment, now) == ProcessAll(next, prefs, FallbackEnrichment, now);
  }
}

=== FILE: dashboard.dfy ===
/**
 The statistics of the insights screen: the processed articles, the count
 per category in order of first appearance, the most frequent category
 ("Top Segment", ties to the earliest) and the number analysed.
 */
module Dashboard {
  import opened Types

  /** One bar of the category chart. */
  datatype Slice = Slice(name: Category, value: nat)

  /** `articles.filter(a => a.processed)`. */
  function ProcessedArticles(s: seq<Article>): (r: seq<Article>)
    ensures Subsequence(r, s)
    ensures forall k :: 0 <= k < |r| ==> r[k].processed && r[k] in s
    ensures |r| + UnprocessedCount(s) == |s|
  {
    if |s| == 0 then []
    else
      assert s == [s[0]] + s[1..];
      var rest := ProcessedArticles(s[1..]);
      if s[0].processed then [s[0]] + rest else rest
  }

  /** Articles of category `c`, counted over a prefix from the right. */
  function CountCategory(s: seq<Article>, c: Category): nat
  {
    if |s| == 0 then 0
    else CountCategory(s[..|s| - 1], c) + (if s[|s| - 1].category == Some(c) then 1 else 0)
  }

  /** Articles that have a category. */
  function CountCategorized(s: seq<Article>): nat
  {
    if |s| == 0 then 0
    else CountCategorized(s[..|s| - 1]) + (if s[|s| - 1].category.Some? then 1 else 0)
  }

  /** The categories in order of their first appearance. */
  function FirstSeen(s: seq<Article>): seq<Category>
  {
    if |s| == 0 then []
    else
      var before := FirstSeen(s[..|s| - 1]);
      match s[|s| - 1].category
      case Some(c) => if c in before then before else before + [c]
      case None => before
  }

  function Names(data: seq<Slice>): seq<Category>
  {
    seq(|data|, k requires 0 <= k < |data| => data[k].name)
  }

  function Total(data: seq<Slice>): nat
  {
    if |data| == 0 then 0 else data[0].value + Total(data[1..])
  }

  /** Adding one to the slice at `i` adds one to the total. */
  lemma {:induction false} TotalBump(data: seq<Slice>, i: nat)
    requires i < |data|
    ensures Total(data[i := data[i].(value := data[i].value + 1)]) == Total(data) + 1
  {
    if i > 0 {
      TotalBump(data[1..], i - 1);
      assert data[i := data[i].(value := data[i].value + 1)][1..] == data[1..][i - 1 := data[i].(value := data[i].value + 1)];
    }
  }

  lemma {:induction false} TotalAppend(data: seq<Slice>, x: Slice)
    ensures Total(data + [x]) == Total(data) + x.value
  {
    if |data| > 0 {
      assert (data + [x])[1..] == data[1..] + [x];
      TotalAppend(data[1..], x);
    }
  }

  /** Position of the slice named `c`, if any. */
  function IndexOf(data: seq<Slice>, c: Category): (r: Option<nat>)
    ensures r.None? ==> forall k :: 0 <= k < |data| ==> data[k].name != c
    ensures r.Some? ==> r.value < |data| && data[r.value].name == c
  {
    if |data| == 0 then None
    else if data[0].name == c then Some(0)
    else match IndexOf(data[1..], c)
      case None => None
      case Some(i) => Some(i + 1)
  }

  /** `data` is the category tally of `s`: its names are the categories in
      order of first appearance, each value is that category's count, and
      the values add up to the number of articles that have a category. */
  predicate Tally(data: seq<Slice>, s: seq<Article>)
  {
    && Names(data) == FirstSeen(s)
    && (forall k :: 0 <= k < |data| ==> data[k].value == CountCategory(s, data[k].name))
    && Total(data) == CountCategorized(s)
  }

  /** A category is among the first-seen ones exactly when it occurs. */
  lemma {:induction false} FirstSeenMember(s: seq<Article>, c: Category)
    ensures c in FirstSeen(s) <==> CountCategory(s, c) > 0
  {
    if |s| > 0 {
      FirstSeenMember(s[..|s| - 1], c);
    }
  }

  /** Each category appears once among the first-seen ones. */
  lemma {:induction false} FirstSeenDistinct(s: seq<Article>)
    ensures Distinct(FirstSeen(s))
  {
    if |s| > 0 {
      FirstSeenDistinct(s[..|s| - 1]);
    }
  }

  /** One step of the `forEach`: count `a` into the tally. */
  function Count(data: seq<Slice>, a: Article): seq<Slice>
  {
    match a.category
    case None => data
    case Some(c) =>
      match IndexOf(data, c)
      case Some(j) => data[j := data[j].(value := data[j].value + 1)]
      case None => data + [Slice(c, 1)]
  }

  /** The counters over `s + [a]`, in terms of those over `s`. */
  lemma CountStep(s: seq<Article>, a: Article, c: Category)
    ensures CountCategory(s + [a], c) == CountCategory(s, c) + (if a.category == Some(c) then 1 else 0)
  {
    assert (s + [a])[..|s|] == s;
  }

  lemma CategorizedStep(s: seq<Article>, a: Article)
    ensures CountCategorized(s + [a]) == CountCategorized(s) + (if a.category.Some? then 1 else 0)
  {
    assert (s + [a])[..|s|] == s;
  }

  lemma FirstSeenStep(s: seq<Article>, a: Article)
    ensures a.category.None? ==> FirstSeen(s + [a]) == FirstSeen(s)
    ensures a.category.Some? ==>
      FirstSeen(s + [a]) == if a.category.value in FirstSeen(s) then FirstSeen(s) else FirstSeen(s) + [a.category.value]
  {
    assert (s + [a])[..|s|] == s;
  }

  /** An article without a category leaves the tally as it is. */
  lemma TallySkip(data: seq<Slice>, s: seq<Article>, a: Article)
    requires Tally(data, s) && a.category.None?
    ensures Tally(data, s + [a])
  {
    FirstSeenStep(s, a);
    CategorizedStep(s, a);
    forall k | 0 <= k < |data|
      ensures data[k].value == CountCategory(s + [a], data[k].name)
    {
      CountStep(s, a, data[k].name);
    }
  }

  /** A category already in the tally: its slice goes up by one. */
  lemma TallyBump(data: seq<Slice>, s: seq<Article>, a: Article, c: Category, j: nat)
    requires Tally(data, s) && a.category == Some(c)
    requires j < |data| && data[j].name == c
    ensures Tally(data[j := data[j].(value := data[j].value + 1)], s + [a])
  {
    var next := data[j := data[j].(value := data[j].value + 1)];
    assert Names(next) == Names(data);
    assert Names(data)[j] == c;
    FirstSeenStep(s, a);
    CategorizedStep(s, a);
    TotalBump(data, j);
    FirstSeenDistinct(s);
    forall k | 0 <= k < |next|
      ensures next[k].value == CountCategory(s + [a], next[k].name)
    {
      CountStep(s, a, next[k].name);
      if k != j {
        assert Names(data)[k] != Names(data)[j];
      }
    }
  }

  /** A category not in the tally yet: a new slice of one at the end. */
  lemma TallyAppend(data: seq<Slice>, s: seq<Article>, a: Article, c: Category)
    requires Tally(data, s) && a.category == Some(c)
    requires forall k :: 0 <= k < |data| ==> data[k].name != c
    ensures Tally(data + [Slice(c, 1)], s + [a])
  {
    var next := data + [Slice(c, 1)];
    assert Names(next) == Names(data) + [c];
    assert c !in Names(data);
    FirstSeenMember(s, c);
    FirstSeenStep(s, a);
    CategorizedStep(s, a);
    TotalAppend(data, Slice(c, 1));
    forall k | 0 <= k < |next|
      ensures next[k].value == CountCategory(s + [a], next[k].name)
    {
      CountStep(s, a, next[k].name);
    }
  }

  /** Counting one more article keeps the tally exact. */
  lemma TallyStep(data: seq<Slice>, s: seq<Article>, a: Article)
    requires Tally(data, s)
    ensures Tally(Count(data, a), s + [a])
  {
    match a.category {
      case None => TallySkip(data, s, a);
      case Some(c) =>
        match IndexOf(data, c) {
          case Some(j) => TallyBump(data, s, a, c, j);
          case None => TallyAppend(data, s, a, c);
        }
    }
  }

  /** The `forEach` over a list: its tally, built one article at a time. */
  method TallyOf(p: seq<Article>) returns (data: seq<Slice>)
    ensures Tally(data, p)
  {
    data := [];
    var i := 0;
    while i < |p|
      invariant 0 <= i <= |p|
      invariant Tally(data, p[..i])
    {
      TallyStep(data, p[..i], p[i]);
      assert p[..i + 1] == p[..i] + [p[i]];
      data := Count(data, p[i]);
      i := i + 1;
    }
    assert p[..|p|] == p;
  }

  /** `categoryData`: over the processed articles, one slice per category
      met, in order of first appearance, no category twice, each slice
      holding a positive count of its category, every occurring category
      present, and the values adding up to the categorised articles. */
  method CategoryData(articles: seq<Article>) returns (data: seq<Slice>)
    ensures var p := ProcessedArticles(articles);
            && Tally(data, p)
            && Distinct(Names(data))
            && (forall c :: c in Names(data) <==> CountCategory(p, c) > 0)
            && (forall k :: 0 <= k < |data| ==> data[k].value >= 1)
  {
    var p := ProcessedArticles(articles);
    data := TallyOf(p);
    FirstSeenDistinct(p);
    forall c
      ensures c in Names(data) <==> CountCategory(p, c) > 0
    {
      FirstSeenMember(p, c);
    }
    assert forall k :: 0 <= k < |data| ==> Names(data)[k] == data[k].name;
  }

  /** Slice `i` has the largest value and no earlier slice has as large a
      one: what comes first after a stable sort by decreasing value. */
  predicate IsTop(data: seq<Slice>, i: int)
  {
    && 0 <= i < |data|
    && (forall j :: 0 <= j < |data| ==> data[j].value <= data[i].value)
    && (forall j :: 0 <= j < i ==> data[j].value < data[i].value)
  }

  /** `categoryData.sort((a, b) => b.value - a.value)[0]`: the stable sort
      puts first the earliest slice with the largest value. */
  method TopSegment(data: seq<Slice>) returns (top: Option<nat>)
    ensures top.None? <==> |data| == 0
    ensures top.Some? ==> IsTop(data, top.value)
  {
    if |data| == 0 {
      return None;
    }
    var best := 0;
    var i := 1;
    while i < |data|
      invariant 1 <= i <= |data|
      invariant 0 <= best < i
      invariant forall j :: 0 <= j < i ==> data[j].value <= data[best].value
      invariant forall j :: 0 <= j < best ==> data[j].value < data[best].value
    {
      if data[i].value > data[best].value {
        best := i;
      }
      i := i + 1;
    }
    return Some(best);
  }

  /** The top slice is unique. */
  lemma TopIsUnique(data: seq<Slice>, i: int, j: int)
    requires IsTop(data, i) && IsTop(data, j)
    ensures i == j
  {
    var vi, vj := data[i].value, data[j].value;
    assert i < j ==> vi < vj;
    assert j < i ==> vj < vi;
  }

  /** The "Top Segment" card: the top category's name, or "N/A" when no
      processed article has a category. */
  method TopSegmentLabel(data: seq<Slice>) returns (caption: string)
    ensures |data| == 0 ==> caption == "N/A"
    ensures |data| > 0 ==> exists i :: IsTop(data, i) && caption == CategoryName(data[i].name)
  {
    var top := TopSegment(data);
    match top {
      case None => caption := "N/A";
      case Some(i) => caption := CategoryName(data[i].name);
    }
  }

  /** The "Total Analyzed" card: the number of processed articles. */
  function TotalAnalyzed(articles: seq<Article>): (n: nat)
    ensures n == |articles| - UnprocessedCount(articles)
  {
    |ProcessedArticles(articles)|
  }
}

=== FILE: feed_view.dfy ===
/**
 What the feed screen derives from the state: the filtered article list
 (search term on title or summary, category, sentiment), marking a
 notification read, and the unread badge count.
 */
module FeedView {
  import opened Types
  import opened Text

  datatype CategoryFilter = AllCategories | OnlyCategory(category: Category)
  datatype SentimentFilter = AllSentiments | OnlySentiment(sentiment: Sentiment)

  /** The three conditions of the filter: the lower-cased term occurs in the
      lower-cased title or in a non-empty summary, and the category and the
      sentiment pass their selectors (an article without analysis passes
      only "All"). */
  predicate Shown(a: Article, term: string, cf: CategoryFilter, sf: SentimentFilter)
  {
    var t := Lower(term);
    && (Contains(Lower(a.title), t) || (a.summary.Some? && a.summary.value != [] && Contains(Lower(a.summary.value), t)))
    && (cf.AllCategories? || a.category == Some(cf.category))
    && (sf.AllSentiments? || a.sentiment == Some(sf.sentiment))
  }

  /** `filteredArticles`: exactly the shown articles, in list order, each as
      often as it occurs. */
  function FilterArticles(s: seq<Article>, term: string, cf: CategoryFilter, sf: SentimentFilter): (r: seq<Article>)
    ensures Subsequence(r, s)
    ensures forall k :: 0 <= k < |r| ==> r[k] in s && Shown(r[k], term, cf, sf)
    ensures forall a :: multiset(r)[a] == if Shown(a, term, cf, sf) then multiset(s)[a] else 0
  {
    if |s| == 0 then []
    else
      assert s == [s[0]] + s[1..];
      var rest := FilterArticles(s[1..], term, cf, sf);
      if Shown(s[0], term, cf, sf) then [s[0]] + rest else rest
  }

  /** With an empty search and both selectors on "All" the feed shows every article. */
  lemma {:induction false} NoFilterShowsAll(s: seq<Article>)
    ensures FilterArticles(s, "", AllCategories, AllSentiments) == s
  {
    if |s| > 0 {
      ContainsEmpty(Lower(s[0].title));
      NoFilterShowsAll(s[1..]);
    }
  }

  /** `onMarkRead`: the notifications with that id become read; nothing else changes. */
  function MarkRead(ns: seq<Notification>, id: string): (r: seq<Notification>)
    ensures |r| == |ns|
    ensures forall k :: 0 <= k < |ns| && ns[k].id != id ==> r[k] == ns[k]
    ensures forall k :: 0 <= k < |ns| && ns[k].id == id ==> r[k] == ns[k].(isRead := true)
  {
    if |ns| == 0 then []
    else [if ns[0].id == id then ns[0].(isRead := true) else ns[0]] + MarkRead(ns[1..], id)
  }

  /** `notifications.filter(n => !n.isRead).length`. */
  function UnreadCount(ns: seq<Notification>): (n: nat)
    ensures n <= |ns|
    ensures n == 0 <==> forall k :: 0 <= k < |ns| ==> ns[k].isRead
    ensures n == |ns| <==> forall k :: 0 <= k < |ns| ==> !ns[k].isRead
  {
    if |ns| == 0 then 0
    else
      var rest := UnreadCount(ns[1..]);
      assert forall k :: 1 <= k < |ns| ==> ns[k] == ns[1..][k - 1];
      (if ns[0].isRead then 0 else 1) + rest
  }

  /** The positions of the unread notifications. */
  function UnreadPositions(ns: seq<Notification>): set<nat>
  {
    set k: nat | k < |ns| && !ns[k].isRead
  }

  /** The badge counts one more when an unread notification is pushed. */
  lemma {:induction false} UnreadCountPush(ns: seq<Notification>, n: Notification)
    ensures UnreadCount(ns + [n]) == UnreadCount(ns) + (if n.isRead then 0 else 1)
  {
    if |ns| > 0 {
      UnreadCountPush(ns[1..], n);
      assert (ns + [n])[1..] == ns[1..] + [n];
    } else {
      assert ns + [n] == [n];
    }
  }

  /** The badge is exactly the number of unread notifications. */
  lemma {:induction false} UnreadCountIsUnreadPositions(ns: seq<Notification>)
    ensures UnreadCount(ns) == |UnreadPositions(ns)|
  {
    if |ns| == 0 {
      assert UnreadPositions(ns) == {};
    } else {
      var m := |ns| - 1;
      var front := ns[..m];
      UnreadCountIsUnreadPositions(front);
      assert ns == front + [ns[m]];
      UnreadCountPush(front, ns[m]);
      var before := UnreadPositions(front);
      assert m !in before;
      if ns[m].isRead {
        assert UnreadPositions(ns) == before;
      } else {
        assert UnreadPositions(ns) == before + {m};
      }
    }
  }

  /** Unread notifications carrying `id`. */
  function UnreadWithId(ns: seq<Notification>, id: string): nat
  {
    if |ns| == 0 then 0
    else (if ns[0].id == id && !ns[0].isRead then 1 else 0) + UnreadWithId(ns[1..], id)
  }

  /** Marking one id read lowers the badge by the number of unread
      notifications with that id, and by nothing else. */
  lemma {:induction false} MarkReadUnreadCount(ns: seq<Notification>, id: string)
    ensures UnreadCount(MarkRead(ns, id)) + UnreadWithId(ns, id) == UnreadCount(ns)
  {
    if |ns| > 0 {
      MarkReadUnreadCount(ns[1..], id);
      assert MarkRead(ns, id)[1..] == MarkRead(ns[1..], id);
    }
  }

  /** Marking the same notification read twice is marking it once. */
  lemma MarkReadIdempotent(ns: seq<Notification>, id: string)
    ensures MarkRead(MarkRead(ns, id), id) == MarkRead(ns, id)
  {
  }

  /** A newly prepended alert raises the badge by one. */
  lemma PrependedAlertCounts(n: Notification, ns: seq<Notification>)
    requires !n.isRead
    ensures UnreadCount([n] + ns) == UnreadCount(ns) + 1
  {
    assert ([n] + ns)[1..] == ns;
  }
}

=== FILE: ingestion.dfy ===
/**
 The refresh handler: fetch every active source, concatenate the per-source
 lists in source order, sort the batch newest first, drop the items whose
 link is already in the working set, prepend the rest and keep the first 100.
 A refresh requested while one is running is dropped, and the running one
 always clears the flag when it ends, whether the fetch succeeded or not.
 */
module Ingestion {
  import opened Types
  import opened RssService

  /** Size of the working set kept after a merge (`slice(0, 100)`). */
  const Capacity: nat := 100

  /** `sources.filter(s => s.active)`. */
  function ActiveSources(sources: seq<RssSource>): (r: seq<RssSource>)
    ensures forall s :: s in r <==> s in sources && s.active
    ensures forall s :: multiset(r)[s] == if s.active then multiset(sources)[s] else 0
    ensures Subsequence(r, sources)
  {
    if |sources| == 0 then []
    else
      assert sources == [sources[0]] + sources[1..];
      var rest := ActiveSources(sources[1..]);
      if sources[0].active then [sources[0]] + rest else rest
  }

  /** The per-source results in source order, as `Promise.all` over the
      active sources delivers them; `fetch` maps a source's url and name to
      the articles of that feed. */
  function FetchAll(sources: seq<RssSource>, fetch: (string, string) -> seq<Article>): (r: seq<seq<Article>>)
    ensures var active := ActiveSources(sources);
            |r| == |active| && forall k :: 0 <= k < |r| ==> r[k] == fetch(active[k].url, active[k].name)
  {
    var active := ActiveSources(sources);
    seq(|active|, k requires 0 <= k < |active| => fetch(active[k].url, active[k].name))
  }

  /** The per-source lists pushed one after another. */
  function Flatten(lists: seq<seq<Article>>): (r: seq<Article>)
    ensures forall a :: a in r <==> exists k :: 0 <= k < |lists| && a in lists[k]
  {
    if |lists| == 0 then []
    else
      var rest := Flatten(lists[1..]);
      assert forall k :: 1 <= k < |lists| ==> lists[k] == lists[1..][k - 1];
      lists[0] + rest
  }

  /** Every per-source list appears in the concatenation; the order is
      stated by `FlattenPush`. */
  lemma {:induction false} FlattenKeepsEveryList(lists: seq<seq<Article>>)
    ensures |Flatten(lists)| == SumLengths(lists)
    ensures forall k :: 0 <= k < |lists| ==> multiset(lists[k]) <= multiset(Flatten(lists))
  {
    if |lists| > 0 {
      FlattenKeepsEveryList(lists[1..]);
      forall k | 0 <= k < |lists|
        ensures multiset(lists[k]) <= multiset(Flatten(lists))
      {
        if k > 0 {
          assert lists[k] == lists[1..][k - 1];
        }
      }
    }
  }

  /** Concatenating two runs of sources concatenates their articles. */
  lemma {:induction false} FlattenAppend(xs: seq<seq<Article>>, ys: seq<seq<Article>>)
    ensures Flatten(xs + ys) == Flatten(xs) + Flatten(ys)
  {
    if |xs| == 0 {
      assert xs + ys == ys;
    } else {
      FlattenAppend(xs[1..], ys);
      assert (xs + ys)[1..] == xs[1..] + ys;
    }
  }

  /** `allArticles.push(...items)` for one more source: its articles follow
      all earlier ones, in their own order. */
  lemma FlattenPush(lists: seq<seq<Article>>, items: seq<Article>)
    ensures Flatten(lists + [items]) == Flatten(lists) + items
  {
    FlattenAppend(lists, [items]);
    assert Flatten([items]) == items + Flatten([items][1..]);
  }

  function SumLengths(lists: seq<seq<Article>>): nat
  {
    if |lists| == 0 then 0 else |lists[0]| + SumLengths(lists[1..])
  }

  /** Newest first: publication times never increase along the list. */
  predicate NewestFirst(s: seq<Article>)
  {
    forall i, j :: 0 <= i < j < |s| ==> s[i].pubDate >= s[j].pubDate
  }

  /** An item at least as new as the head can go in front. */
  lemma ConsNewestFirst(x: Article, s: seq<Article>)
    requires NewestFirst(s) && (|s| == 0 || x.pubDate >= s[0].pubDate)
    ensures NewestFirst([x] + s)
  {
    assert forall j :: 0 <= j < |s| ==> s[0].pubDate >= s[j].pubDate;
  }

  /** Puts `a` in front of the first element that is not newer than it. */
  function InsertByDate(a: Article, s: seq<Article>): (r: seq<Article>)
    requires NewestFirst(s)
    ensures NewestFirst(r)
    ensures multiset(r) == multiset(s) + multiset{a}
    ensures |r| == |s| + 1
    ensures r[0] == a || (|s| > 0 && r[0] == s[0])
    decreases |s|
  {
    if |s| == 0 then [a]
    else if s[0].pubDate <= a.pubDate then ConsNewestFirst(a, s); [a] + s
    else
      var rest := InsertByDate(a, s[1..]);
      assert s == [s[0]] + s[1..];
      ConsNewestFirst(s[0], rest);
      [s[0]] + rest
  }

  /** `sort((a, b) => b.pubDate - a.pubDate)`: an insertion sort that puts
      each element before the later ones with the same date. */
  function SortNewestFirst(s: seq<Article>): (r: seq<Article>)
    ensures NewestFirst(r)
    ensures multiset(r) == multiset(s)
    decreases |s|
  {
    if |s| == 0 then []
    else
      assert s == [s[0]] + s[1..];
      InsertByDate(s[0], SortNewestFirst(s[1..]))
  }

  /** The candidate batch of a refresh: the per-source results concatenated
      in source order and sorted newest first. */
  function CandidateBatch(perSource: seq<seq<Article>>): (r: seq<Article>)
    ensures NewestFirst(r)
    ensures multiset(r) == multiset(Flatten(perSource))
  {
    SortNewestFirst(Flatten(perSource))
  }

  /** The links present in a list. */
  function Links(s: seq<Article>): (r: set<string>)
    ensures forall l :: l in r <==> exists k :: 0 <= k < |s| && s[k].link == l
  {
    set k | 0 <= k < |s| :: s[k].link
  }

  /** `sorted.filter(a => !existingLinks.has(a.link))`: keeps, in order and
      with their multiplicity, exactly the items whose link is not in `links`. */
  function FreshItems(batch: seq<Article>, links: set<string>): (r: seq<Article>)
    ensures Subsequence(r, batch)
    ensures forall k :: 0 <= k < |r| ==> r[k] in batch && r[k].link !in links
    decreases |batch|
  {
    if |batch| == 0 then []
    else
      assert batch == [batch[0]] + batch[1..];
      if batch[0].link in links then FreshItems(batch[1..], links)
      else [batch[0]] + FreshItems(batch[1..], links)
  }

  /** The filter keeps every copy of an item whose link is new and none of
      an item whose link is known. */
  lemma {:induction false} FreshItemsCount(batch: seq<Article>, links: set<string>, a: Article)
    ensures multiset(FreshItems(batch, links))[a] == if a.link in links then 0 else multiset(batch)[a]
  {
    if |batch| > 0 {
      var head, tail := batch[0], batch[1..];
      var r, rest := FreshItems(batch, links), FreshItems(tail, links);
      FreshItemsCount(tail, links, a);
      assert batch == [head] + tail;
      assert r == if head.link in links then rest else [head] + rest;
      ConsCount(head, tail, a);
      ConsCount(head, rest, a);
      var cb, ct, cr, crest := multiset(batch)[a], multiset(tail)[a], multiset(r)[a], multiset(rest)[a];
      assert cb == (if head == a then 1 else 0) + ct;
      assert cr == (if head.link !in links && head == a then 1 else 0) + crest;
      assert crest == if a.link in links then 0 else ct;
    }
  }

  lemma ConsCount(x: Article, s: seq<Article>, a: Article)
    ensures multiset([x] + s)[a] == (if x == a then 1 else 0) + multiset(s)[a]
  {
    assert multiset([x] + s) == multiset{x} + multiset(s);
  }

  /** `[...front, ...back].slice(0, 100)`: `front` then `back`, cut to the capacity. */
  function PrependBounded(front: seq<Article>, back: seq<Article>): (r: seq<Article>)
    ensures |r| == Min(Capacity, |front| + |back|)
    ensures forall k :: 0 <= k < |r| && k < |front| ==> r[k] == front[k]
    ensures forall k :: |front| <= k < |r| ==> r[k] == back[k - |front|]
  {
    var all := front + back;
    all[..Min(Capacity, |all|)]
  }

  /** The merge of `setArticles`: the items of the sorted batch whose link is
      new, in front of the previous list, cut to the capacity. */
  function Merge(prev: seq<Article>, sorted: seq<Article>): (r: seq<Article>)
    ensures |r| == Min(Capacity, |FreshItems(sorted, Links(prev))| + |prev|)
    ensures forall k :: 0 <= k < |r| && k < |FreshItems(sorted, Links(prev))| ==>
              r[k] == FreshItems(sorted, Links(prev))[k] && r[k] in sorted && r[k].link !in Links(prev)
  {
    PrependBounded(FreshItems(sorted, Links(prev)), prev)
  }

  /** Behind the new items the previous list follows in its own order: a
      previous item is only ever pushed back or cut off, never replaced. */
  lemma MergeKeepsPrevious(prev: seq<Article>, sorted: seq<Article>)
    ensures var r, incoming := Merge(prev, sorted), FreshItems(sorted, Links(prev));
            forall k :: |incoming| <= k < |r| ==> r[k] == prev[k - |incoming|]
  {
  }

  /** A batch whose links are all known already (for instance the empty
      batch when every source failed) leaves a working set within capacity
      untouched. */
  lemma MergeOfKnownLinksChangesNothing(prev: seq<Article>, sorted: seq<Article>)
    requires |prev| <= Capacity
    requires forall k :: 0 <= k < |sorted| ==> sorted[k].link in Links(prev)
    ensures Merge(prev, sorted) == prev
  {
    var incoming := FreshItems(sorted, Links(prev));
    assert |incoming| == 0;
  }

  /** The links of a concatenation are the links of its parts. */
  lemma LinksOfConcat(x: seq<Article>, y: seq<Article>)
    ensures Links(x + y) == Links(x) + Links(y)
  {
    forall l | l in Links(x + y)
      ensures l in Links(x) + Links(y)
    {
      var k :| 0 <= k < |x + y| && (x + y)[k].link == l;
      if k >= |x| {
        assert y[k - |x|].link == l;
      }
    }
    forall l | l in Links(x)
      ensures l in Links(x + y)
    {
      var k :| 0 <= k < |x| && x[k].link == l;
      assert (x + y)[k].link == l;
    }
    forall l | l in Links(y)
      ensures l in Links(x + y)
    {
      var k :| 0 <= k < |y| && y[k].link == l;
      assert (x + y)[|x| + k].link == l;
    }
  }

  /** Every item of the batch whose link is new survives the filter, and so
      does its link. */
  lemma FreshItemsKeepsNew(batch: seq<Article>, links: set<string>, a: Article)
    ensures a in batch && a.link !in links ==> a in FreshItems(batch, links)
    ensures a in batch && a.link !in links ==> a.link in Links(FreshItems(batch, links))
  {
    if a in batch && a.link !in links {
      var r := FreshItems(batch, links);
      FreshItemsCount(batch, links, a);
      assert a in multiset(batch);
      assert a in multiset(r);
      var j :| 0 <= j < |r| && r[j] == a;
    }
  }

  /** Merging the same batch twice is merging it once, as long as the first
      merge kept the whole batch. */
  lemma MergeIdempotent(prev: seq<Article>, sorted: seq<Article>)
    requires |FreshItems(sorted, Links(prev))| + |prev| <= Capacity
    ensures Merge(Merge(prev, sorted), sorted) == Merge(prev, sorted)
  {
    var once := Merge(prev, sorted);
    var incoming := FreshItems(sorted, Links(prev));
    assert once == incoming + prev;
    LinksOfConcat(incoming, prev);
    forall k | 0 <= k < |sorted|
      ensures sorted[k].link in Links(once)
    {
      FreshItemsKeepsNew(sorted, Links(prev), sorted[k]);
    }
    MergeOfKnownLinksChangesNothing(once, sorted);
  }

  /** Against no known links the filter keeps the whole batch. */
  lemma {:induction false} FreshItemsAllNew(batch: seq<Article>)
    ensures FreshItems(batch, {}) == batch
  {
    if |batch| > 0 {
      FreshItemsAllNew(batch[1..]);
      assert FreshItems(batch, {}) == [batch[0]] + FreshItems(batch[1..], {});
      assert batch == [batch[0]] + batch[1..];
    }
  }

  /** Links can repeat: two items of one batch with the same link both get
      in, since the batch is only checked against the previous list. */
  lemma DuplicateLinksInBatchSurvive(a: Article, b: Article)
    requires a.link == b.link
    ensures Merge([], SortNewestFirst([a, b])) == SortNewestFirst([a, b])
    ensures |Merge([], SortNewestFirst([a, b]))| == 2
  {
    var sorted := SortNewestFirst([a, b]);
    assert |sorted| == |multiset([a, b])| == 2;
    assert Links([]) == {};
    FreshItemsAllNew(sorted);
  }

  /** How a fetch round ended: the results of every active source, or a
      rejection that skips the merge. */
  datatype FetchOutcome = Fetched(perSource: seq<seq<Article>>) | Rejected

  /** The guard and the flag at the start of `refreshFeed`. */
  function BeginRefresh(st: AppState): (r: AppState)
    ensures r.isRefreshing
    ensures st.isRefreshing ==> r == st
    ensures r.articles == st.articles && r.notifications == st.notifications
  {
    if st.isRefreshing then st else st.(isRefreshing := true)
  }

  /** The end of `refreshFeed`: merge into the list as it is now (which the
      background analysis may have changed meanwhile), then clear the flag. */
  function EndRefresh(st: AppState, outcome: FetchOutcome): (r: AppState)
    ensures !r.isRefreshing
    ensures r.notifications == st.notifications
    ensures outcome.Rejected? ==> r.articles == st.articles
    ensures outcome.Fetched? ==> r.articles == Merge(st.articles, CandidateBatch(outcome.perSource))
  {
    var articles := match outcome
      case Fetched(perSource) => Merge(st.articles, CandidateBatch(perSource))
      case Rejected => st.articles;
    st.(articles := articles, isRefreshing := false)
  }

  /** A whole refresh taken as one step; while another refresh is running it does nothing. */
  function Refresh(st: AppState, outcome: FetchOutcome): (r: AppState)
    ensures st.isRefreshing ==> r == st
    ensures !st.isRefreshing ==> !r.isRefreshing && r.notifications == st.notifications
    ensures !st.isRefreshing && outcome.Fetched? ==>
              r.articles == Merge(st.articles, CandidateBatch(outcome.perSource))
    ensures !st.isRefreshing && outcome.Rejected? ==> r.articles == st.articles
    ensures |r.articles| <= Capacity || r.articles == st.articles
  {
    if st.isRefreshing then st else EndRefresh(BeginRefresh(st), outcome)
  }

  /** A second refresh issued while the first is in flight is dropped: it
      changes nothing, and the state the first one ends with is the same. */
  lemma SecondRefreshDropped(st: AppState, outcome: FetchOutcome)
    ensures BeginRefresh(BeginRefresh(st)) == BeginRefresh(st)
    ensures Refresh(BeginRefresh(st), outcome) == BeginRefresh(st)
  {
  }

  /** Refreshing keeps the working set within capacity and every article's
      analysis fields consistent with its `processed` flag, provided the
      fetched articles are consistent. */
  lemma RefreshKeepsInvariant(st: AppState, perSource: seq<seq<Article>>)
    requires |st.articles| <= Capacity && AllConsistent(st.articles)
    requires forall k :: 0 <= k < |perSource| ==> AllConsistent(perSource[k])
    ensures var r := Refresh(st, Fetched(perSource));
            |r.articles| <= Capacity && AllConsistent(r.articles)
  {
    var r := Refresh(st, Fetched(perSource));
    if !st.isRefreshing {
      FlattenConsistent(perSource);
      var batch := CandidateBatch(perSource);
      forall k | 0 <= k < |r.articles|
        ensures Consistent(r.articles[k])
      {
        var a := r.articles[k];
        if a !in st.articles {
          assert a in batch;
          assert a in multiset(Flatten(perSource));
        }
      }
    }
  }

  lemma {:induction false} FlattenConsistent(lists: seq<seq<Article>>)
    requires forall k :: 0 <= k < |lists| ==> AllConsistent(lists[k])
    ensures AllConsistent(Flatten(lists))
  {
    if |lists| > 0 {
      FlattenConsistent(lists[1..]);
      var f := Flatten(lists);
      assert f == lists[0] + Flatten(lists[1..]);
      forall k | 0 <= k < |f|
        ensures Consistent(f[k])
      {
        if k >= |lists[0]| {
          assert f[k] == Flatten(lists[1..])[k - |lists[0]|];
        }
      }
    }
  }

  /** The per-source results of `refreshFeed`: each active source's feed
      read by `fetchRssFeed`, with `respond` standing for what the network
      answers at a url. */
  function FetchActiveFeeds(sources: seq<RssSource>, respond: string -> FeedResponse,
                            btoa: string -> string, now: int): (r: seq<seq<Article>>)
    ensures var active := ActiveSources(sources);
            && |r| == |active|
            && (forall k :: 0 <= k < |r| ==> r[k] == FetchRssFeed(respond(active[k].url), active[k].name, btoa, now))
            && (forall k, j :: 0 <= k < |r| && 0 <= j < |r[k]| ==>
                  Pending(r[k][j]) && r[k][j].source == active[k].name)
  {
    FetchAll(sources, (url, name) => FetchRssFeed(respond(url), name, btoa, now))
  }

  /** Every article a merge adds comes from the batch. */
  lemma MergeAddsFromBatch(prev: seq<Article>, sorted: seq<Article>, a: Article)
    ensures a in Merge(prev, sorted) && a !in prev ==> a in sorted
  {
    if a in Merge(prev, sorted) && a !in prev {
      MergeKeepsPrevious(prev, sorted);
    }
  }

  /** Fetched feeds hold pending articles only, so they are consistent. */
  lemma FetchedFeedsConsistent(sources: seq<RssSource>, respond: string -> FeedResponse,
                               btoa: string -> string, now: int)
    ensures var perSource := FetchActiveFeeds(sources, respond, btoa, now);
            forall k :: 0 <= k < |perSource| ==> AllConsistent(perSource[k])
  {
  }

  /** An article of the fetched batch is pending and carries the name of an
      active source. */
  lemma FetchedArticleOrigin(sources: seq<RssSource>, respond: string -> FeedResponse,
                             btoa: string -> string, now: int)
    ensures forall a :: a in Flatten(FetchActiveFeeds(sources, respond, btoa, now)) ==>
              Pending(a) && exists s :: s in sources && s.active && a.source == s.name
  {
    var perSource := FetchActiveFeeds(sources, respond, btoa, now);
    var active := ActiveSources(sources);
    forall a | a in Flatten(perSource)
      ensures Pending(a) && exists s :: s in sources && s.active && a.source == s.name
    {
      var k :| 0 <= k < |perSource| && a in perSource[k];
      var j :| 0 <= j < |perSource[k]| && perSource[k][j] == a;
      assert active[k] in active;
    }
  }

  /** The whole of `refreshFeed`, from the sources to the merged list: the
      working set stays within 100 and consistent, and every article it adds
      is pending and comes from a source that is active. */
  lemma RefreshFromSources(st: AppState, sources: seq<RssSource>, respond: string -> FeedResponse,
                           btoa: string -> string, now: int)
    requires |st.articles| <= Capacity && AllConsistent(st.articles)
    ensures var r := Refresh(st, Fetched(FetchActiveFeeds(sources, respond, btoa, now)));
            && |r.articles| <= Capacity && AllConsistent(r.articles)
            && forall a :: a in r.articles && a !in st.articles ==>
                 Pending(a) && exists s :: s in sources && s.active && a.source == s.name
  {
    var perSource := FetchActiveFeeds(sources, respond, btoa, now);
    FetchedFeedsConsistent(sources, respond, btoa, now);
    RefreshKeepsInvariant(st, perSource);
    FetchedArticleOrigin(sources, respond, btoa, now);
    var r := Refresh(st, Fetched(perSource));
    forall a | a in r.articles && a !in st.articles
      ensures Pending(a) && exists s :: s in sources && s.active && a.source == s.name
    {
      var batch := CandidateBatch(perSource);
      MergeAddsFromBatch(st.articles, batch, a);
      assert a in multiset(batch);
    }
  }
}

=== FILE: news_card.dfy ===
/**
 The relative-time label of a news card. The clock reading and the parsed
 publication date arrive as millisecond timestamps.
 */
module NewsCard {
  import opened Text

  const MsPerMinute: nat := 60_000
  const MsPerHour: nat := 3_600_000
  const MsPerDay: nat := 86_400_000

  /** Which of the three label forms applies, with its count. */
  datatype Age = Days(days: int) | Hours(hours: int) | Minutes(minutes: int)

  /** The branch structure of `timeAgo`: whole minutes and whole hours
      rounded down; more than 24 hours gives days, 1 to 24 hours gives
      hours, anything less (a date in the future included) gives minutes. */
  function Elapsed(nowMs: int, dateMs: int): (r: Age)
    ensures var diff := nowMs - dateMs;
            && (r.Days? <==> diff >= 25 * MsPerHour)
            && (r.Hours? <==> MsPerHour <= diff < 25 * MsPerHour)
            && (r.Minutes? <==> diff < MsPerHour)
            && (r.Days? ==> r.days >= 1 && r.days * MsPerDay <= diff < (r.days + 1) * MsPerDay)
            && (r.Hours? ==> 1 <= r.hours <= 24 && r.hours * MsPerHour <= diff < (r.hours + 1) * MsPerHour)
            && (r.Minutes? ==> r.minutes * MsPerMinute <= diff < (r.minutes + 1) * MsPerMinute)
            && (r.Minutes? && diff >= 0 ==> 0 <= r.minutes <= 59)
  {
    var diff := nowMs - dateMs;
    var minutes := diff / 60_000;
    var hours := minutes / 60;
    if hours > 24 then Days(hours / 24)
    else if hours > 0 then Hours(hours)
    else Minutes(minutes)
  }

  /** The text shown for an age. */
  function Label(age: Age): string
  {
    match age
    case Days(d) => IntToString(d) + "d ago"
    case Hours(h) => IntToString(h) + "h ago"
    case Minutes(m) => IntToString(m) + "m ago"
  }

  /** `timeAgo`: the whole number of days, hours or minutes elapsed, rounded
      down, followed by its unit; a date in the future reads as a negative
      number of minutes. */
  function TimeAgo(nowMs: int, dateMs: int): (r: string)
    ensures var diff := nowMs - dateMs;
            && (diff >= 25 * MsPerHour ==>
                  exists n: nat :: n >= 1 && n * MsPerDay <= diff < (n + 1) * MsPerDay && r == NatToString(n) + "d ago")
            && (MsPerHour <= diff < 25 * MsPerHour ==>
                  exists n: nat :: 1 <= n <= 24 && n * MsPerHour <= diff < (n + 1) * MsPerHour && r == NatToString(n) + "h ago")
            && (0 <= diff < MsPerHour ==>
                  exists n: nat :: n <= 59 && n * MsPerMinute <= diff < (n + 1) * MsPerMinute && r == NatToString(n) + "m ago")
            && (diff < 0 ==>
                  exists n: nat :: n >= 1 && -(n * MsPerMinute) <= diff < (1 - n) * MsPerMinute && r == "-" + NatToString(n) + "m ago")
  {
    var age := Elapsed(nowMs, dateMs);
    match age
    case Days(d) => assert Label(age) == NatToString(d) + "d ago"; Label(age)
    case Hours(h) => assert Label(age) == NatToString(h) + "h ago"; Label(age)
    case Minutes(m) =>
      if m >= 0 then assert Label(age) == NatToString(m) + "m ago"; Label(age)
      else assert Label(age) == "-" + NatToString(-m) + "m ago"; Label(age)
  }

  /** Exactly 24 hours reads "24h ago", one more hour "1d ago". */
  lemma DayBoundary()
    ensures TimeAgo(24 * MsPerHour, 0) == "24h ago"
    ensures TimeAgo(25 * MsPerHour, 0) == "1d ago"
  {
    assert Elapsed(24 * MsPerHour, 0) == Hours(24);
    assert NatToString(24) == "24";
    assert Elapsed(25 * MsPerHour, 0) == Days(1);
    assert NatToString(1) == "1";
  }
}

=== FILE: rss_service.dfy ===
/**
 The per-item mapping of the feed reader: a raw feed item (the text of its
 `title`, `link`, `pubDate`, `description` and `content:encoded` elements,
 each possibly missing) becomes a pending Article with defaults filled in,
 a cleaned content snippet and an id built from the source name, a hash of
 the link and the item's position. Fetching and XML parsing are outside the
 model: their outcome arrives as a `FeedResponse`.
 */
module RssService {
  import opened Types
  import opened Text

  /** Items kept per feed (`slice(0, 15)`). */
  const MaxItemsPerFeed: nat := 15
  /** Characters kept of the cleaned snippet (`slice(0, 250)`). */
  const SnippetCap: nat := 250
  /** Content preferred to a description shorter than this. */
  const ShortDescription: nat := 50
  /** Characters of the encoded link kept in the id. */
  const LinkHashLength: nat := 10

  const Nbsp: string := "&nbsp;"
  const NoTitle: string := "No Title"
  const NoLink: string := "#"
  const PendingSnippet: string := "Summary analysis pending..."

  /** The text content of an item's child elements; `None` when the element is absent. */
  datatype RawItem = RawItem(
    title: Option<string>,
    link: Option<string>,
    pubDate: Option<int>,
    description: Option<string>,
    encodedContent: Option<string>)

  /** How the request and the parse went. Every failure is handled the same way. */
  datatype FeedResponse =
    | NetworkFailure
    | HttpError(status: int)
    | ParseError
    | Document(items: seq<RawItem>)

  /** `element?.textContent || fallback`: an absent or empty text falls back. */
  function TextOr(text: Option<string>, fallback: string): (r: string)
    ensures text.Some? && text.value != [] ==> r == text.value
    ensures text.None? || text.value == [] ==> r == fallback
  {
    if text.Some? && text.value != [] then text.value else fallback
  }

  /** The description, replaced by the encoded content when that is
      non-empty and the description is empty or shorter than 50 characters. */
  function ChooseBody(description: Option<string>, encoded: Option<string>): (r: string)
    ensures var d, e := TextOr(description, ""), TextOr(encoded, "");
            && (e != [] && |d| < ShortDescription ==> r == e)
            && (!(e != [] && |d| < ShortDescription) ==> r == d)
  {
    var d := TextOr(description, "");
    var e := TextOr(encoded, "");
    if e != [] && (d == [] || |d| < ShortDescription) then e else d
  }

  /** Skips the rest of a tag after its `<`: every character up to and
      including the next `>`, or everything when there is none. */
  function SkipTag(s: string): (r: string)
    ensures |r| <= |s|
    ensures forall k :: 0 <= k < |r| ==> r[k] in s
    decreases |s|
  {
    if |s| == 0 then ""
    else if s[0] == '>' then s[1..]
    else SkipTag(s[1..])
  }

  /** `replace(/<[^>]*>?/gm, '')`: removes every `<`, together with the tag it opens. */
  function StripTags(s: string): (r: string)
    ensures '<' !in r
    ensures forall k :: 0 <= k < |r| ==> r[k] in s
    decreases |s|
  {
    if |s| == 0 then ""
    else if s[0] == '<' then StripTags(SkipTag(s[1..]))
    else [s[0]] + StripTags(s[1..])
  }

  /** Text without a `<` passes through tag stripping unchanged. */
  lemma {:induction false} StripTagsKeepsPlainText(s: string)
    requires '<' !in s
    ensures StripTags(s) == s
    decreases |s|
  {
    if |s| > 0 {
      assert s[0] != '<';
      StripTagsKeepsPlainText(s[1..]);
      assert s == [s[0]] + s[1..];
    }
  }

  /** The rest of a tag is skipped up to and including its first `>`. */
  lemma {:induction false} SkipTagToClose(t: string, s: string)
    requires '>' !in t
    ensures SkipTag(t + ">" + s) == s
    decreases |t|
  {
    if |t| == 0 {
      assert ([] + ">" + s)[1..] == s;
    } else {
      assert t[0] != '>';
      assert (t + ">" + s)[1..] == t[1..] + ">" + s;
      SkipTagToClose(t[1..], s);
    }
  }

  /** A tag that is never closed runs to the end of the text. */
  lemma {:induction false} SkipTagUnclosed(t: string)
    requires '>' !in t
    ensures SkipTag(t) == ""
    decreases |t|
  {
    if |t| > 0 {
      assert t[0] != '>';
      SkipTagUnclosed(t[1..]);
    }
  }

  /** Text in front of the first `<` is kept as it is. */
  lemma {:induction false} StripTagsKeepsText(p: string, s: string)
    requires '<' !in p
    ensures StripTags(p + s) == p + StripTags(s)
    decreases |p|
  {
    if |p| > 0 {
      assert p[0] != '<';
      assert (p + s)[1..] == p[1..] + s;
      StripTagsKeepsText(p[1..], s);
      assert p == [p[0]] + p[1..];
    } else {
      assert p + s == s;
    }
  }

  /** A closed tag is removed with its brackets and what follows is kept. */
  lemma StripTagsDropsTag(t: string, s: string)
    requires '>' !in t
    ensures StripTags("<" + t + ">" + s) == StripTags(s)
  {
    var x := "<" + t + ">" + s;
    assert x[0] == '<';
    assert x[1..] == t + ">" + s;
    SkipTagToClose(t, s);
  }

  /** An unclosed `<` removes everything after it. */
  lemma StripTagsDropsUnclosed(t: string)
    requires '>' !in t
    ensures StripTags("<" + t) == ""
  {
    var x := "<" + t;
    assert x[0] == '<';
    assert x[1..] == t;
    SkipTagUnclosed(t);
  }

  /** `replace(/&nbsp;/g, ' ')`, scanning left to right. */
  function ReplaceNbsp(s: string): (r: string)
    ensures |r| <= |s|
    ensures Nbsp <= s ==> r != [] && r[0] == ' '
    decreases |s|
  {
    if Nbsp <= s then " " + ReplaceNbsp(s[|Nbsp|..])
    else if |s| == 0 then ""
    else [s[0]] + ReplaceNbsp(s[1..])
  }

  /** The first `&nbsp;` becomes one space: the text before it, which holds
      no `&nbsp;` of its own (a stray `&`, as in "AT&T", is allowed), is kept. */
  lemma {:induction false} ReplaceNbspOnce(p: string, s: string)
    requires !Contains(p, Nbsp)
    ensures ReplaceNbsp(p + Nbsp + s) == p + " " + ReplaceNbsp(s)
  {
    var x := p + Nbsp + s;
    assert x[..|p|] == p;
    assert x[|p|..|p| + |Nbsp|] == Nbsp;
    assert x[|p| + |Nbsp|..] == s;
    ContainsIffOccurs(p, Nbsp);
    forall j | 0 <= j < |p|
      ensures !OccursAt(x, Nbsp, j)
    {
      NoNbspBefore(p, s, j);
    }
    ReplaceNbspAt(x, |p|);
  }

  /** An `&nbsp;` cannot start inside a prefix that has none, even reaching
      into the `&nbsp;` that follows it: `nbsp;` holds no `&`. */
  lemma NoNbspBefore(p: string, s: string, j: int)
    requires forall i :: !OccursAt(p, Nbsp, i)
    requires 0 <= j < |p|
    ensures !OccursAt(p + Nbsp + s, Nbsp, j)
  {
    var x := p + Nbsp + s;
    if j + |Nbsp| <= |p| {
      assert x[j..j + |Nbsp|] == p[j..j + |Nbsp|];
      assert !OccursAt(p, Nbsp, j);
    } else {
      var d := |p| - j;
      assert 1 <= d < |Nbsp|;
      assert x[j..j + |Nbsp|][d] == x[|p|] == '&';
      assert Nbsp[d] != '&';
    }
  }

  /** The same, by position: the first `&nbsp;` starts at `i`. */
  lemma {:induction false} ReplaceNbspAt(x: string, i: nat)
    requires i + |Nbsp| <= |x| && x[i..i + |Nbsp|] == Nbsp
    requires forall j :: 0 <= j < i ==> !OccursAt(x, Nbsp, j)
    ensures ReplaceNbsp(x) == x[..i] + " " + ReplaceNbsp(x[i + |Nbsp|..])
    decreases i
  {
    if i == 0 {
      assert Nbsp <= x;
    } else {
      var y := x[1..];
      assert y[i - 1..i - 1 + |Nbsp|] == Nbsp;
      assert y[..i - 1] == x[1..i];
      assert y[i - 1 + |Nbsp|..] == x[i + |Nbsp|..];
      forall j | 0 <= j < i - 1
        ensures !OccursAt(y, Nbsp, j)
      {
        OccursShift(x, Nbsp, j);
      }
      ReplaceNbspAt(y, i - 1);
      assert ReplaceNbsp(x) == [x[0]] + ReplaceNbsp(y) by {
        assert !OccursAt(x, Nbsp, 0);
        assert !(Nbsp <= x);
      }
      assert x[..i] == [x[0]] + y[..i - 1];
    }
  }

  /** Text in which no `&nbsp;` occurs passes the replacement unchanged,
      stray `&` included. */
  lemma {:induction false} ReplaceNbspKeepsNbspFree(s: string)
    requires !Contains(s, Nbsp)
    ensures ReplaceNbsp(s) == s
    decreases |s|
  {
    if |s| > 0 {
      assert !(Nbsp <= s);
      ReplaceNbspKeepsNbspFree(s[1..]);
      assert s == [s[0]] + s[1..];
    }
  }

  /** A stretch of the output without a space was copied from the input. */
  lemma {:induction false} SpaceFreePrefixCopied(p: string, t: string)
    ensures p <= ReplaceNbsp(t) && ' ' !in p ==> p <= t
    decreases |t|
  {
    if Nbsp <= t {
      assert ReplaceNbsp(t)[0] == ' ';
    } else if |t| > 0 && |p| > 0 {
      assert ReplaceNbsp(t) == [t[0]] + ReplaceNbsp(t[1..]);
      SpaceFreePrefixCopied(p[1..], t[1..]);
      assert p <= ReplaceNbsp(t) <==> p[0] == t[0] && p[1..] <= ReplaceNbsp(t[1..]);
      assert p <= t <==> p[0] == t[0] && p[1..] <= t[1..];
    }
  }

  /** `&nbsp;` starts a string when an `&` is followed by `nbsp;`. */
  lemma NbspPrefix(x: string)
    ensures Nbsp <= x <==> |x| > 0 && x[0] == '&' && "nbsp;" <= x[1..]
  {
    assert Nbsp == ['&'] + "nbsp;";
  }

  /** After the replacement no `&nbsp;` is left anywhere. */
  lemma {:induction false} ReplaceNbspRemovesAll(s: string)
    ensures !Contains(ReplaceNbsp(s), Nbsp)
    decreases |s|
  {
    var r := ReplaceNbsp(s);
    NbspPrefix(r);
    if Nbsp <= s {
      ReplaceNbspRemovesAll(s[|Nbsp|..]);
      assert r == " " + ReplaceNbsp(s[|Nbsp|..]);
      assert r[1..] == ReplaceNbsp(s[|Nbsp|..]);
    } else if |s| > 0 {
      var tail := ReplaceNbsp(s[1..]);
      ReplaceNbspRemovesAll(s[1..]);
      assert r == [s[0]] + tail;
      assert r[1..] == tail;
      SpaceFreePrefixCopied("nbsp;", s[1..]);
      NbspPrefix(s);
    }
  }

  /** Text without an `&` passes through the replacement unchanged. */
  lemma {:induction false} ReplaceNbspKeepsPlainText(s: string)
    requires '&' !in s
    ensures ReplaceNbsp(s) == s
    decreases |s|
  {
    if |s| > 0 {
      assert s[0] != '&';
      assert !(Nbsp <= s);
      ReplaceNbspKeepsPlainText(s[1..]);
      assert s == [s[0]] + s[1..];
    }
  }

  /** Text without an `&` contains no `&nbsp;`. */
  lemma {:induction false} NoAmpersandNoNbsp(s: string)
    requires '&' !in s
    ensures !Contains(s, Nbsp)
    decreases |s|
  {
    if |s| > 0 {
      assert s[0] != Nbsp[0];
      NoAmpersandNoNbsp(s[1..]);
    }
  }

  /** What the snippet cleaning guarantees. */
  predicate CleanText(s: string)
  {
    && |s| <= SnippetCap
    && '<' !in s
    && !Contains(s, Nbsp)
    && (s == [] || !IsWhitespace(s[0]))
  }

  /** A character other than a space that is not in the input is not in
      the output of the replacement. */
  lemma {:induction false} ReplaceNbspAddsOnlySpaces(s: string, c: char)
    requires c != ' ' && c !in s
    ensures c !in ReplaceNbsp(s)
    decreases |s|
  {
    if Nbsp <= s {
      ReplaceNbspAddsOnlySpaces(s[|Nbsp|..], c);
    } else if |s| > 0 {
      ReplaceNbspAddsOnlySpaces(s[1..], c);
    }
  }

  /** A character not in the text is not in its trimmed prefix. */
  lemma TrimmedPrefixLacks(s: string, c: char, n: nat)
    requires c !in s && n <= |Trim(s)|
    ensures c !in Trim(s)[..n]
  {
    var t := Trim(s);
    assert forall k :: 0 <= k < n ==> t[..n][k] == t[k];
  }

  /** Tags removed, `&nbsp;` replaced by a space, trimmed, then cut to 250 characters. */
  function CleanSnippet(body: string): (r: string)
    ensures CleanText(r)
    ensures var t := Trim(ReplaceNbsp(StripTags(body)));
            r <= t && |r| == Min(SnippetCap, |t|)
  {
    var stripped := StripTags(body);
    var spaced := ReplaceNbsp(stripped);
    var trimmed := Trim(spaced);
    var n := Min(SnippetCap, |trimmed|);
    ReplaceNbspAddsOnlySpaces(stripped, '<');
    TrimmedPrefixLacks(spaced, '<', n);
    ReplaceNbspRemovesAll(stripped);
    assert trimmed[0..n] == trimmed[..n];
    ContainsThroughOccurrence(trimmed, trimmed[..n], 0, Nbsp);
    assert n > 0 ==> trimmed[..n][0] == trimmed[0];
    trimmed[..n]
  }

  /** Short text without `<`, `&` or leading white space is clean. */
  lemma PlainTextIsClean(s: string)
    requires |s| <= SnippetCap && '<' !in s && '&' !in s
    requires s == [] || !IsWhitespace(s[0])
    ensures CleanText(s)
  {
    NoAmpersandNoNbsp(s);
  }

  /** The placeholder itself passes as cleaned text. */
  lemma PendingSnippetIsClean()
    ensures CleanText(PendingSnippet)
  {
    PlainTextIsClean(PendingSnippet);
  }

  /** `contentSnippet || "Summary analysis pending..."`: the cleaned body,
      or the placeholder when cleaning leaves nothing. */
  function SnippetOf(raw: RawItem): (r: string)
    ensures r != [] && CleanText(r)
    ensures CleanSnippet(ChooseBody(raw.description, raw.encodedContent)) == [] ==> r == PendingSnippet
    ensures CleanSnippet(ChooseBody(raw.description, raw.encodedContent)) != [] ==>
              r == CleanSnippet(ChooseBody(raw.description, raw.encodedContent))
  {
    var snippet := CleanSnippet(ChooseBody(raw.description, raw.encodedContent));
    if snippet != [] then snippet else PendingSnippetIsClean(); PendingSnippet
  }

  /** A long body without markup and without white space at its ends is
      simply cut to its first 250 characters. */
  lemma PlainBodyIsCut(body: string)
    requires '<' !in body && '&' !in body && |body| > SnippetCap
    requires !IsWhitespace(body[0]) && !IsWhitespace(body[|body| - 1])
    ensures CleanSnippet(body) == body[..SnippetCap]
  {
    StripTagsKeepsPlainText(body);
    ReplaceNbspKeepsPlainText(body);
    TrimKeepsTrimmed(body);
  }

  /** The cut to 250 characters comes after the trim, so a snippet can end in
      white space: 249 letters, a space and one more letter keep the space. */
  lemma SnippetCanEndInWhitespace()
    ensures exists body :: var r := CleanSnippet(body); r != [] && IsWhitespace(r[|r| - 1])
  {
    var body := seq(SnippetCap + 1, k => if k == SnippetCap - 1 then ' ' else 'a');
    assert forall k :: 0 <= k < |body| ==> body[k] == 'a' || k == SnippetCap - 1;
    PlainBodyIsCut(body);
    assert body[..SnippetCap][SnippetCap - 1] == ' ';
  }

  /** `replace(/\s+/g, '-')`: every run of white space becomes one `-`. */
  function DashWhitespace(s: string): (r: string)
    ensures NoWhitespace(r)
    decreases |s|
  {
    if |s| == 0 then ""
    else if IsWhitespace(s[0]) then
      var rest := s[SkipSpace(s, 0)..];
      "-" + DashWhitespace(rest)
    else [s[0]] + DashWhitespace(s[1..])
  }

  /** A run of white space between text without white space and text that
      does not start with white space becomes a single `-`; the text before
      it is kept. */
  lemma {:induction false} DashWhitespaceRun(p: string, w: string, t: string)
    requires NoWhitespace(p)
    requires w != [] && forall k :: 0 <= k < |w| ==> IsWhitespace(w[k])
    requires t == [] || !IsWhitespace(t[0])
    ensures DashWhitespace(p + w + t) == p + "-" + DashWhitespace(t)
    decreases |p|
  {
    var s := p + w + t;
    if |p| == 0 {
      assert s == w + t;
      assert forall k :: 0 <= k < |w| ==> s[k] == w[k];
      assert |t| > 0 ==> s[|w|] == t[0];
      var j := SkipSpace(s, 0);
      assert j == |w|;
      assert s[j..] == t;
    } else {
      assert s == [p[0]] + (p[1..] + w + t);
      DashWhitespaceCopies(p[0], p[1..] + w + t);
      DashWhitespaceRun(p[1..], w, t);
      assert p + "-" + DashWhitespace(t) == [p[0]] + (p[1..] + "-" + DashWhitespace(t));
    }
  }

  /** A character other than white space is copied. */
  lemma DashWhitespaceCopies(c: char, tail: string)
    requires !IsWhitespace(c)
    ensures DashWhitespace([c] + tail) == [c] + DashWhitespace(tail)
  {
    assert ([c] + tail)[1..] == tail;
  }

  /** A name without white space is used as is. */
  lemma {:induction false} DashWhitespaceKeepsPlainName(s: string)
    requires NoWhitespace(s)
    ensures DashWhitespace(s) == s
    decreases |s|
  {
    if |s| > 0 {
      DashWhitespaceKeepsPlainName(s[1..]);
      assert s == [s[0]] + s[1..];
    }
  }

  /** `btoa(link).slice(0, 10)`, with the base-64 encoder as a parameter. */
  function LinkHash(btoa: string -> string, link: string): (r: string)
    ensures r <= btoa(link) && |r| == Min(LinkHashLength, |btoa(link)|)
  {
    var h := btoa(link);
    h[..Min(LinkHashLength, |h|)]
  }

  /** `${name with white space runs dashed}-${hash}-${index}`. */
  function ItemId(sourceName: string, linkHash: string, index: nat): (r: string)
    ensures DashWhitespace(sourceName) + "-" + linkHash + "-" <= r
    ensures |r| == |DashWhitespace(sourceName)| + |linkHash| + |NatToString(index)| + 2
    ensures var tail := NatToString(index);
            |tail| < |r| && r[|r| - |tail|..] == tail && r[|r| - |tail| - 1] == '-'
    ensures NoWhitespace(sourceName) ==> sourceName + "-" <= r
  {
    var head := DashWhitespace(sourceName);
    assert NoWhitespace(sourceName) ==> head == sourceName by {
      if NoWhitespace(sourceName) {
        DashWhitespaceKeepsPlainName(sourceName);
      }
    }
    var r := head + "-" + linkHash + "-" + NatToString(index);
    assert (head + "-" + linkHash + "-") + NatToString(index) == r;
    r
  }

  /** Two strings that end in a dash followed by a dash-free tail agree on that tail. */
  lemma TailAfterLastDash(p1: string, d1: string, p2: string, d2: string)
    requires |p1| > 0 && p1[|p1| - 1] == '-'
    requires |p2| > 0 && p2[|p2| - 1] == '-'
    requires '-' !in d1 && '-' !in d2
    requires p1 + d1 == p2 + d2
    ensures d1 == d2
  {
    var s := p1 + d1;
    assert forall k :: |p2| <= k < |s| ==> s[k] == d2[k - |p2|];
    assert s[|p1| - 1] == '-';
    assert |p1| <= |p2|;
    assert forall k :: |p1| <= k < |s| ==> s[k] == d1[k - |p1|];
    assert s[|p2| - 1] == '-';
    assert |p2| <= |p1|;
    assert d1 == s[|p1|..];
  }

  /** Items of one feed at different positions get different ids, whatever
      their links hash to. */
  lemma ItemIdsDiffer(sourceName: string, h1: string, h2: string, i: nat, j: nat)
    requires i != j
    ensures ItemId(sourceName, h1, i) != ItemId(sourceName, h2, j)
  {
    var d1, d2 := NatToString(i), NatToString(j);
    var p1 := DashWhitespace(sourceName) + "-" + h1 + "-";
    var p2 := DashWhitespace(sourceName) + "-" + h2 + "-";
    assert ItemId(sourceName, h1, i) == p1 + d1;
    assert ItemId(sourceName, h2, j) == p2 + d2;
    if p1 + d1 == p2 + d2 {
      TailAfterLastDash(p1, d1, p2, d2);
      NatToStringInjective(i, j);
    }
  }

  /** One raw item at position `index` of the feed `sourceName` as a pending
      Article. `now` stands for the current time used when `pubDate` is missing. */
  function NormalizeItem(raw: RawItem, index: nat, sourceName: string, btoa: string -> string, now: int): (a: Article)
    ensures Pending(a) && a.source == sourceName
    ensures a.title != [] && a.link != [] && a.contentSnippet != []
    ensures raw.title.Some? && raw.title.value != [] ==> a.title == raw.title.value
    ensures raw.title.None? || raw.title.value == [] ==> a.title == NoTitle
    ensures raw.link.Some? && raw.link.value != [] ==> a.link == raw.link.value
    ensures raw.link.None? || raw.link.value == [] ==> a.link == NoLink
    ensures a.pubDate == if raw.pubDate.Some? then raw.pubDate.value else now
    ensures a.contentSnippet == SnippetOf(raw)
    ensures a.id == ItemId(sourceName, LinkHash(btoa, a.link), index)
  {
    var title := TextOr(raw.title, NoTitle);
    var link := TextOr(raw.link, NoLink);
    var pubDate := if raw.pubDate.Some? then raw.pubDate.value else now;
    Article(
      ItemId(sourceName, LinkHash(btoa, link), index),
      title, link, sourceName, pubDate, SnippetOf(raw),
      None, None, None, None, false)
  }

  /** `fetchRssFeed`: the first 15 items of a parsed feed, each normalised
      with its position; any failure gives the empty list. */
  function FetchRssFeed(resp: FeedResponse, sourceName: string, btoa: string -> string, now: int): (r: seq<Article>)
    ensures |r| <= MaxItemsPerFeed
    ensures !resp.Document? ==> r == []
    ensures resp.Document? ==> |r| == Min(MaxItemsPerFeed, |resp.items|)
    ensures resp.Document? ==>
              forall k :: 0 <= k < |r| ==> r[k] == NormalizeItem(resp.items[k], k, sourceName, btoa, now)
    ensures forall k :: 0 <= k < |r| ==> Pending(r[k]) && r[k].source == sourceName
  {
    match resp
    case Document(items) =>
      var n := Min(MaxItemsPerFeed, |items|);
      seq(n, k requires 0 <= k < n => NormalizeItem(items[k], k, sourceName, btoa, now))
    case _ => []
  }

  /** The articles of one feed have pairwise distinct ids. */
  lemma FeedIdsDistinct(resp: FeedResponse, sourceName: string, btoa: string -> string, now: int)
    ensures var r := FetchRssFeed(resp, sourceName, btoa, now);
            forall i, j :: 0 <= i < j < |r| ==> r[i].id != r[j].id
  {
    var r := FetchRssFeed(resp, sourceName, btoa, now);
    forall i, j | 0 <= i < j < |r|
      ensures r[i].id != r[j].id
    {
      ItemIdsDiffer(sourceName, LinkHash(btoa, r[i].link), LinkHash(btoa, r[j].link), i, j);
    }
  }
}

=== FILE: text.dfy ===
/**
 String helpers the pipeline relies on: the JavaScript white-space class used
 by `trim` and `\s`, ASCII lower-casing, substring search, trimming, and
 decimal rendering of integers.
 */
module Text {

  /** The characters JavaScript's `trim` and the regex class `\s` treat as
      white space: the ECMAScript WhiteSpace and LineTerminator code points. */
  predicate IsWhitespace(c: char)
  {
    || c == ' ' || c == '\t' || c == '\n' || c == '\r' || c == '\U{000B}' || c == '\U{000C}'
    || c == '\U{00A0}' || c == '\U{1680}' || ('\U{2000}' <= c <= '\U{200A}')
    || c == '\U{2028}' || c == '\U{2029}' || c == '\U{202F}' || c == '\U{205F}'
    || c == '\U{3000}' || c == '\U{FEFF}'
  }

  predicate NoWhitespace(s: string)
  {
    forall k :: 0 <= k < |s| ==> !IsWhitespace(s[k])
  }

  function LowerChar(c: char): char
  {
    if 'A' <= c <= 'Z' then (c as int + 32) as char else c
  }

  /** `toLowerCase`, restricted to ASCII letters. */
  function Lower(s: string): (r: string)
    ensures |r| == |s|
    ensures forall k :: 0 <= k < |s| ==> r[k] == LowerChar(s[k])
  {
    seq(|s|, k requires 0 <= k < |s| => LowerChar(s[k]))
  }

  /** `needle` occurs in `hay` starting at offset `i`. */
  predicate OccursAt(hay: string, needle: string, i: int)
  {
    0 <= i && i + |needle| <= |hay| && hay[i..i + |needle|] == needle
  }

  /** `hay.includes(needle)`, computed by scanning `hay` from the left. */
  predicate Contains(hay: string, needle: string)
    decreases |hay|
  {
    needle <= hay || (|hay| > 0 && Contains(hay[1..], needle))
  }

  /** Dropping the first character moves every occurrence one place left. */
  lemma OccursShift(hay: string, needle: string, i: int)
    requires |hay| > 0 && 0 <= i
    ensures OccursAt(hay[1..], needle, i) <==> OccursAt(hay, needle, i + 1)
  {
    if i + 1 + |needle| <= |hay| {
      assert hay[1..][i..i + |needle|] == hay[i + 1..i + 1 + |needle|];
    }
  }

  /** The scan agrees with the declarative meaning of "is a substring of". */
  lemma {:induction false} ContainsIffOccurs(hay: string, needle: string)
    ensures Contains(hay, needle) <==> exists i :: OccursAt(hay, needle, i)
    decreases |hay|
  {
    if needle <= hay {
      assert OccursAt(hay, needle, 0);
    } else if |hay| > 0 {
      var tail := hay[1..];
      ContainsIffOccurs(tail, needle);
      if Contains(tail, needle) {
        var i :| OccursAt(tail, needle, i);
        OccursShift(hay, needle, i);
      }
      if exists i :: OccursAt(hay, needle, i) {
        var i :| OccursAt(hay, needle, i);
        if i > 0 {
          OccursShift(hay, needle, i - 1);
        }
      }
    }
  }

  /** The empty string is contained in every string. */
  lemma ContainsEmpty(hay: string)
    ensures Contains(hay, "")
  {
  }

  /** A substring of a substring is a substring. */
  lemma ContainsThroughOccurrence(s: string, t: string, lo: int, needle: string)
    ensures OccursAt(s, t, lo) && Contains(t, needle) ==> Contains(s, needle)
  {
    if OccursAt(s, t, lo) && Contains(t, needle) {
      ContainsIffOccurs(t, needle);
      var i :| OccursAt(t, needle, i);
      assert t == s[lo..lo + |t|];
      var window := s[lo + i..lo + i + |needle|];
      assert forall k :: 0 <= k < |needle| ==> window[k] == t[i + k] == needle[k];
      assert window == needle;
      assert OccursAt(s, needle, lo + i);
      ContainsIffOccurs(s, needle);
    }
  }

  /** The first position at or after `i` that is not white space. */
  function SkipSpace(s: string, i: nat): (j: nat)
    requires i <= |s|
    ensures i <= j <= |s|
    ensures forall k :: i <= k < j ==> IsWhitespace(s[k])
    ensures j == |s| || !IsWhitespace(s[j])
    decreases |s| - i
  {
    if i < |s| && IsWhitespace(s[i]) then SkipSpace(s, i + 1) else i
  }

  /** The end of the text before `j` once trailing white space down to
      `lo` is dropped. */
  function BackSpace(s: string, lo: nat, j: nat): (hi: nat)
    requires lo <= j <= |s|
    ensures lo <= hi <= j
    ensures forall k :: hi <= k < j ==> IsWhitespace(s[k])
    ensures hi == lo || !IsWhitespace(s[hi - 1])
    decreases j
  {
    if j > lo && IsWhitespace(s[j - 1]) then BackSpace(s, lo, j - 1) else j
  }

  /** The trimmed text has no white space at either end. */
  lemma TrimmedEnds(s: string, lo: nat, hi: nat)
    requires lo <= hi <= |s|
    requires lo == |s| || !IsWhitespace(s[lo])
    requires hi == lo || !IsWhitespace(s[hi - 1])
    ensures var r := s[lo..hi]; r == [] || (!IsWhitespace(r[0]) && !IsWhitespace(r[|r| - 1]))
  {
    var r := s[lo..hi];
    if r != [] {
      assert r[0] == s[lo] && r[|r| - 1] == s[hi - 1];
    }
  }

  /** A slice of `s` only holds characters of `s` and substrings of `s`. */
  lemma SliceWithin(s: string, lo: nat, hi: nat)
    requires lo <= hi <= |s|
    ensures forall k :: 0 <= k < hi - lo ==> s[lo..hi][k] in s
    ensures forall needle :: Contains(s[lo..hi], needle) ==> Contains(s, needle)
  {
    var r := s[lo..hi];
    assert OccursAt(s, r, lo);
    assert forall k :: 0 <= k < |r| ==> r[k] == s[lo + k];
    forall needle | Contains(r, needle)
      ensures Contains(s, needle)
    {
      ContainsThroughOccurrence(s, r, lo, needle);
    }
  }

  /** `trim`: the result is the part of `s` between its leading and trailing
      white space, and has neither. */
  function Trim(s: string): (r: string)
    ensures exists lo :: OccursAt(s, r, lo) && (forall k :: 0 <= k < lo ==> IsWhitespace(s[k]))
                         && (forall k :: lo + |r| <= k < |s| ==> IsWhitespace(s[k]))
    ensures r == [] || (!IsWhitespace(r[0]) && !IsWhitespace(r[|r| - 1]))
    ensures forall k :: 0 <= k < |r| ==> r[k] in s
    ensures forall needle :: Contains(r, needle) ==> Contains(s, needle)
  {
    var lo := SkipSpace(s, 0);
    var hi := BackSpace(s, lo, |s|);
    TrimmedEnds(s, lo, hi);
    SliceWithin(s, lo, hi);
    assert OccursAt(s, s[lo..hi], lo);
    s[lo..hi]
  }

  /** Trimming leaves alone a string that has no white space at either end,
      so it is idempotent. */
  lemma TrimKeepsTrimmed(s: string)
    requires s == [] || (!IsWhitespace(s[0]) && !IsWhitespace(s[|s| - 1]))
    ensures Trim(s) == s
  {
  }

  function DigitChar(d: nat): (c: char)
    requires d < 10
  {
    ('0' as int + d) as char
  }

  predicate IsDigitChar(c: char)
  {
    '0' <= c <= '9'
  }

  /** Decimal rendering of a natural number, as template-literal
      interpolation produces it. */
  function NatToString(n: nat): (r: string)
    ensures 1 <= |r|
    ensures n >= 10 ==> 2 <= |r|
    ensures forall k :: 0 <= k < |r| ==> IsDigitChar(r[k])
    decreases n
  {
    if n < 10 then [DigitChar(n)] else NatToString(n / 10) + [DigitChar(n % 10)]
  }

  /** Distinct numbers render as distinct strings. */
  lemma {:induction false} NatToStringInjective(a: nat, b: nat)
    requires NatToString(a) == NatToString(b)
    ensures a == b
    decreases a
  {
    var sa, sb := NatToString(a), NatToString(b);
    if a < 10 && b < 10 {
      assert sa[0] == sb[0];
    } else if a < 10 || b < 10 {
    } else {
      assert sa[|sa| - 1] == sb[|sb| - 1];
      assert a % 10 == b % 10;
      assert sa[..|sa| - 1] == NatToString(a / 10);
      assert sb[..|sb| - 1] == NatToString(b / 10);
      NatToStringInjective(a / 10, b / 10);
    }
  }

  /** Decimal rendering of an integer, with a leading `-` when negative. */
  function IntToString(i: int): (r: string)
  {
    if i < 0 then "-" + NatToString(-i) else NatToString(i)
  }
}

=== FILE: types.dfy ===
/**
 The records the news pipeline passes around: sources, articles with their
 optional enrichment, notifications, user preferences, and the small piece of
 application state (working set, notification list, refresh flag) that the
 refresh and background-analysis transitions step.
 */
module Types {

  /** An optional value; stands for a field that may be `undefined`. */
  datatype Option<T> = None | Some(value: T)

  datatype Sentiment = Positive | Neutral | Negative

  /** The closed set of categories the analyzer may assign. */
  datatype Category = Tech | Finance | Politics | Brands | Other

  function CategoryName(c: Category): string
  {
    match c
    case Tech => "Tech"
    case Finance => "Finance"
    case Politics => "Politics"
    case Brands => "Brands"
    case Other => "Other"
  }

  datatype RssSource = RssSource(id: string, name: string, url: string, active: bool)

  /** A news item. `pubDate` is a timestamp in milliseconds. The four analysis
      fields are absent until the background analysis writes them. */
  datatype Article = Article(
    id: string,
    title: string,
    link: string,
    source: string,
    pubDate: int,
    contentSnippet: string,
    summary: Option<string>,
    sentiment: Option<Sentiment>,
    sentimentScore: Option<real>,
    category: Option<Category>,
    processed: bool)

  /** What the analyzer returns for one article. */
  datatype Enrichment = Enrichment(summary: string, category: Category, sentiment: Sentiment, sentimentScore: real)

  datatype NotificationKind = Breaking | Digest | SystemNotice

  /** A notification; `timestamp` is in milliseconds. */
  datatype Notification = Notification(
    id: string,
    title: string,
    message: string,
    timestamp: int,
    isRead: bool,
    kind: NotificationKind)

  datatype AlertFrequency = Instant | Daily

  datatype Preferences = Preferences(
    trackedKeywords: seq<string>,
    sentimentThreshold: real,
    alertFrequency: AlertFrequency,
    emailEnabled: bool,
    sources: seq<RssSource>)

  /** The application state the refresh and analysis transitions act on. */
  datatype AppState = AppState(articles: seq<Article>, notifications: seq<Notification>, isRefreshing: bool)

  /** An article fresh from a feed: not processed, no analysis fields. */
  predicate Pending(a: Article)
  {
    && !a.processed
    && a.summary.None? && a.sentiment.None? && a.sentimentScore.None? && a.category.None?
  }

  /** The analysis fields are present exactly when the article is processed. */
  predicate Consistent(a: Article)
  {
    a.processed <==> (a.summary.Some? && a.sentiment.Some? && a.sentimentScore.Some? && a.category.Some?)
  }

  predicate AllConsistent(s: seq<Article>)
  {
    forall k :: 0 <= k < |s| ==> Consistent(s[k])
  }

  /** The fields set at ingestion and never touched by analysis agree. */
  predicate SameFacts(a: Article, b: Article)
  {
    && a.id == b.id && a.title == b.title && a.link == b.link
    && a.source == b.source && a.pubDate == b.pubDate && a.contentSnippet == b.contentSnippet
  }

  function Min(a: int, b: int): int
  {
    if a <= b then a else b
  }

  /** Number of unprocessed articles. */
  function UnprocessedCount(s: seq<Article>): nat
  {
    if |s| == 0 then 0 else (if s[0].processed then 0 else 1) + UnprocessedCount(s[1..])
  }

  /** No element occurs twice. */
  predicate Distinct<T(==)>(s: seq<T>)
  {
    forall i, j :: 0 <= i < j < |s| ==> s[i] != s[j]
  }

  /** `r` keeps some of the elements of `s`, in their original order. */
  predicate Subsequence<T(==)>(r: seq<T>, s: seq<T>)
    decreases |s|
  {
    if |r| == 0 then true
    else if |s| == 0 then false
    else if r[0] == s[0] then Subsequence(r[1..], s[1..])
    else Subsequence(r, s[1..])
  }
}
